=== FILE: README.md ===
# PDF batching bot: verified model of the per-user batch state

The bot collects documents and photos that a Telegram user sends. It waits
three seconds after the last upload, then merges the files into one PDF
labelled `PDF #<n>` and sends it back. Commands let the user:

- finish the batch at once (`/newpdf`);
- throw the batch away (`/clean`, `/start`, a confirmed subscription check);
- ask for the state (`/status`).

This project models that core in Dafny. It covers:

- **Scheduler** (`scheduler.dfy`): the state as a value. It is the three
  per-user dictionaries `user_files`, `user_pdf_counter` and `user_tasks`.
  There is one function per handler, giving the state the handler leaves
  and its reply. `Apply` and `Run` drive the bot with a sequence of events,
  and the expiry of a user's timer is an event of its own. The lemmas
  describe whole runs:
  - no stored upload is lost or put into two PDFs, where a PDF counts once
    it is rendered, even if sending it then fails (bot.py:1293-1306 then
    deletes its files);
  - labels step by two;
  - a reset restarts the numbering;
  - what `/status` announces.
- **Handlers** (`handlers.dfy`): the class `BatchState`. It holds the three
  dictionaries as fields, and its methods update them in place the way the
  handlers do. Each method is proved to produce the state and reply of the
  matching Scheduler function and to keep the invariant.
- **Layout** (`layout.dfy`):
  - the progress bar and percentage shown after each upload;
  - the text of one spreadsheet row;
  - the sanitised file name and stored path of an upload;
  - the choice of renderer from a stored file's extension.
- **TextClean** (`textclean.dfy`): `clean_text`. The replacement table is a
  Python dict literal with abstract mojibake entries followed by the fixed
  NUL, CRLF and CR entries. It applies the table's entries in dict order,
  strips whitespace, and maps a blank result to "".
- **PyStr** (`pystr.dfy`): the Python string operations these use.
  - `str.replace`, including the empty pattern.
  - `str.strip` and `str.isspace`, with Python's whitespace set.
  - `str.join` and `str.lower`, the latter on ASCII.
  - `os.path.splitext`'s extension and `str(int)`.

Everything outside the bot's control is a parameter of the handler that
meets it:

- whether the subscription gate lets the user through;
- whether fetching and storing the attachment succeeded;
- whether the "creating PDF" notice was sent;
- how rendering and delivery ended: sent, the send failed and was
  reported, or an exception reached the outer handler.

The time stamp in a stored file name is a parameter too.

The counter is modelled exactly as the code handles it:

- **A new batch bumps the counter.** The counter goes up on every upload
  attempt into an empty list, including each failed one (bot.py:936-937). It goes up again after each finalize
  (bot.py:1319). So a new user's PDFs are numbered 2, 4, 6, …
- **Every reset sets the counter to 1.** This holds for `clean`
  (bot.py:1429), `start` (bot.py:393) and the subscription callback
  (bot.py:1451).

## Model

| member | source | states |
|---|---|---|
| Scheduler.CollectStep | bot.py:905-981 | Behind the gate, the user always leaves with a list, even when the upload fails: a new user gets an empty list and counter 1. An empty list bumps the counter whatever the message carries. A stored upload is appended after the earlier files, the user's timer is armed, and the progress view is for the new count. A message without an attachment, or one whose upload fails, leaves the list and timers alone. No other user is touched and the invariant holds. |
| Scheduler.OpenBatch | bot.py:930-937 | Before the attachment is looked at, the user has a list equal to the one they had. A new user's counter is 2. An existing empty list's counter goes up by one. A non-empty list leaves the state as it was. |
| Scheduler.FireStep | bot.py:984-1023 | The timer is always forgotten. Finalization runs exactly when the list is non-empty and the notice went out. Its result is that of `create_and_send_pdf`. Otherwise only the timer mark changes. |
| Scheduler.FinalizeStep | bot.py:1149-1332 | An empty list is a no-op. An exception before the batch is cleared leaves everything unchanged. Otherwise the PDF is labelled with the counter read at entry and holds the whole list. The list becomes empty and the counter becomes label + 1, also when the send failed. |
| Scheduler.NewPdfStep | bot.py:1335-1379 | With no files it changes nothing and asks for files. With files, the timer is gone and the batch is finalized. The PDF is labelled with the counter and holds the whole list. The list becomes empty and the counter becomes label + 1. An exception leaves only the timer cancelled. |
| Scheduler.CleanStep | bot.py:1382-1434 | The timer is cancelled and the counter is 1. The list becomes empty only if the user had one. |
| Scheduler.StartStep | bot.py:392-399 | The list is empty, the counter is 1 and there is no timer. |
| Scheduler.ConfirmStep | bot.py:1449-1452 | A confirmed subscription empties the list and sets the counter to 1. A live timer stays live. |
| Scheduler.Apply | bot.py:78-80 | Every event changes only its own user's entries in the three dictionaries and keeps the invariant. |
| Scheduler.NewPdfIsEarlyFire | bot.py:1361-1374 | `/newpdf` on a non-empty list has the same effect as the timer expiring now. |
| Scheduler.ConfirmedTimerFindsNothing | bot.py:989-993 | After a confirmed subscription check, a timer that was live is still live. When it fires it finds an empty list and produces nothing. |
| Scheduler.StatusWaitingPredictsPdf | bot.py:1499-1511 | While files wait, the number and count that `status` shows are the label and size of the PDF `/newpdf` would produce. |
| Scheduler.StatusIdleUnderstatesNextLabel | bot.py:1512-1519 | With an empty list, the "next PDF number" that `status` shows is one less than the label the next batch gets. |
| Scheduler.StatusOf | bot.py:1492-1519 | A refused gate gives the subscribe prompt. Otherwise `status` reports waiting files exactly when the list is non-empty, with their count and the counter. It reports idle exactly when the list is empty, with the counter. It says "ready" exactly when the user has no list. Under the invariant, the number it shows is at least 1. |
| Scheduler.StepAccounting | bot.py:968 | For one event that is not a reset: the files of the PDFs it finishes, followed by the list it leaves, equal the list it found followed by the file it stored. |
| Scheduler.NoLossNoDuplication | bot.py:1316 | Over any run without a reset: the files of a user's finished PDFs, in order, followed by the waiting list, equal the list at the start followed by every stored upload in arrival order. |
| Scheduler.OrphanedTimerKeepsAccounting | bot.py:984-1023 | A timer that fires after its handle left `user_tasks` still moves the list into the PDF whole and labels it two above the last, so the run properties do not rest on the model's guard that only recorded timers fire. |
| Scheduler.StepLabels | bot.py:936-937 | One event either finishes no PDF and keeps the counter's relation to the last label, or finishes a PDF labelled two above the last. |
| Scheduler.LabelsAdvanceByTwo | bot.py:1319 | With no resets and no failed uploads, the k-th PDF of a run is labelled `last + 2k`, where `last` is the label before the run. |
| Scheduler.FreshUserLabels | bot.py:931-937 | From the initial state, a user's PDFs are labelled 2, 4, 6, … |
| Scheduler.ResetRestartsNumbering | bot.py:1429 | A reset finishes no PDF and puts the user where a new user starts, so the next label is 2. |
| Scheduler.FailedUploadSkipsALabel | bot.py:936-956 | A photo whose download fails still bumps the counter of the new empty list. So after one successful photo, `/newpdf` produces a PDF labelled 3, not 2. |
| Handlers.BatchState.constructor | bot.py:78-80 | The three dictionaries start empty. |
| Handlers.BatchState.Collect | bot.py:930-981 | Updates the dictionaries in place to the state and reply of `CollectStep` and keeps the invariant. |
| Handlers.BatchState.DelayedPdf | bot.py:984-1023 | Same, with `FireStep`. |
| Handlers.BatchState.CreateAndSendPdf | bot.py:1149-1332 | Same, with `FinalizeStep`. |
| Handlers.BatchState.NewPdf | bot.py:1361-1379 | Same, with `NewPdfStep`. |
| Handlers.BatchState.Clean | bot.py:1407-1429 | Same, with `CleanStep`. |
| Handlers.BatchState.Start | bot.py:391-399 | Same, with `StartStep`. |
| Handlers.BatchState.CheckSubscriptionCallback | bot.py:1446-1452 | Same, with `ConfirmStep`. |
| Handlers.BatchState.Status | bot.py:1499-1524 | Changes nothing and replies what `StatusOf` says of the current state. |
| Layout.Progress | bot.py:842-857 | Nothing is shown for no files. Otherwise the bar has ten cells, and a cell is filled exactly when its index is below the file count. The percentage is between 10 and 100. |
| Layout.ProgressPercentMatchesBar | bot.py:853-857 | The percentage is ten per filled cell. It is 100 exactly when ten or more files were collected. |
| Layout.RowText | bot.py:1242-1246 | The row is at most 150 characters. A joined row of up to 150 is unchanged. A longer one becomes its first 147 characters and "...". |
| Layout.RowShortenedIff | bot.py:1242-1246 | A row is shortened exactly when its cells plus the " \| " separators exceed 150 characters. |
| Layout.SafeFilename | bot.py:945 | Same length, each '/' and '\\' becomes '_', other characters are kept, and no separator remains. |
| Layout.StoredPath | bot.py:944-956 | Every stored upload lives under "temp/". The extension it keeps is stated by PhotoGoesToImage and DocumentKeepsExtension. |
| Layout.PhotoGoesToImage | bot.py:1169-1171 | A stored photo's path always has extension ".jpg" and goes to the image renderer. |
| Layout.DocumentKeepsExtension | bot.py:1169 | A stored document's path has the extension of its sanitised name. Its renderer is the one chosen for that extension, lower-cased. |
| Layout.KindOfExtension | bot.py:1171-1269 | Image exactly for ".jpg", ".jpeg" and ".png". Word exactly for ".docx". Spreadsheet exactly for ".xlsx" and ".xls". Anything else is unknown, and the extension is kept. |
| Layout.KindOf | bot.py:1169-1269 | Only a path with an extension of at least four characters, starting with '.', reaches a renderer. An unknown extension is reported lower-cased. |
| PyStr.Ext | bot.py:1169 | The extension is empty, or it is a suffix that starts with '.', holds no '/' and no other '.'. |
| PyStr.ExtOfComponent | bot.py:1169 | A path ending in "/<name><ext>" has extension `ext`, if the name does not start with a dot and `ext` is one dot followed by no dot or separator. |
| PyStr.Strip | bot.py:1086 | The result is the input with only leading and trailing whitespace removed: a slice whose cut-off ends are all whitespace, with no whitespace at either end. An all-whitespace string becomes empty. |
| PyStr.JoinLength | bot.py:1242 | A joined row is as long as its cells plus one separator between each pair. |
| PyStr.Join | bot.py:1242 | A joined row starts with its first cell and ends with its last cell. |
| PyStr.JoinSnoc | bot.py:1242 | Joining one more cell appends the separator and that cell, so the cells and separators appear in order. |
| PyStr.Replace | bot.py:1084 | Replacing a pattern by itself changes nothing. Replacing by a string of the same length keeps the length. Its partners below state which occurrences are replaced. |
| PyStr.ReplaceCharByNothing | bot.py:1078 | Replacing NUL (or any single character) by "" drops exactly its occurrences and keeps the other characters in order. |
| PyStr.ReplaceNoMatch | bot.py:1083-1084 | A text in which a replacement key does not occur passes that step unchanged. |
| PyStr.Lower | bot.py:1169 | Same length, and each character is lower-cased on its own. |
| PyStr.IntToString | bot.py:947 | The user id in a stored path is non-empty and all digits, with a leading '-' exactly for a negative id. |
| PyStr.NatToStringValue | bot.py:947 | The decimal digits denote the number, and only 0 starts with '0'. |
| PyStr.IntToStringValue | bot.py:947 | The digits after an optional '-' denote the id's magnitude, with no leading zero, so `str(i)` is the canonical decimal form of `i`. |
| PyStr.ReplaceCharByChar | bot.py:945 | Replacing one character by another keeps the length and changes exactly the positions that held it. |
| TextClean.DictItems | bot.py:1068-1081 | The dict built from the literal has unique keys, exactly the literal's keys, each with its last value, in order of first occurrence. |
| TextClean.DictItemsAppendFresh | bot.py:1078-1081 | Entries with new, distinct keys end the dict in their own order, so the three fixed steps run last. |
| TextClean.ApplyAllConcat | bot.py:1083-1084 | Applying two runs of table entries is applying the first, then the second. |
| TextClean.CleanText | bot.py:1056-1101 | Empty input gives "". The loop over the table gives `Cleaned`, whose result has no whitespace at either end. |
| TextClean.Cleaned | bot.py:1058-1092 | Empty input gives "". Otherwise the result is the replaced text with only edge whitespace removed, and it has no whitespace at either end. |
| TextClean.FixedStepsRunLast | bot.py:1078-1084 | The table acts as the mojibake repairs, then NUL removal, then CRLF and CR to LF. |
| TextClean.CleanedHasNoNulOrCr | bot.py:1078-1091 | The cleaned text holds no NUL and no carriage return. |
| TextClean.CrLfBecomesOneLineFeed | bot.py:1079-1080 | A CRLF pair becomes a single line feed, and the text on either side is normalised on its own. |
| TextClean.BlankCleansToEmpty | bot.py:1087-1091 | Whitespace-only text cleans to "". |

## Left out

- Telegram transport is not modelled. This covers sending, editing and
  deleting messages, fetching and downloading files, sending the PDF, and
  the progress-message id dictionary. Their outcomes are handler
  parameters.
- The subscription check and its `user_subscribed` cache are not modelled.
  Each gated handler takes the gate's verdict as a boolean.
- SQLite statistics, user records and admin features are not modelled.
  This includes a failure of `increment_user_stats` after the counter
  update, which changes no batch state.
- PDF rendering is not modelled. This covers FPDF, PIL, python-docx,
  openpyxl, fonts, image scaling and deleting the temporary files. Only
  the extension dispatch and the row text are modelled.
- Real time and interleavings are not modelled. Each handler is one
  atomic step, and a timer fires only while the model records it in
  `pending`. NoLossNoDuplication and LabelsAdvanceByTwo hold for this
  atomic-step model only. The program departs from it in four ways, and
  the last two break those two properties:
  - Every re-armed batch loses its timer handle. When an upload re-arms a
    timer that is still sleeping, it cancels that task (bot.py:974-977).
    The cancelled task's `finally` (bot.py:1022-1023) runs only after
    `collect` has stored the new task at bot.py:981, so it pops the new
    handle. After any batch of two or more uploads, `user_tasks` has no
    entry while the newest timer is live. `/newpdf`, `/clean` and `/start`
    then cancel nothing (bot.py:1363, 1408, 394), so the "timer is
    dropped" facts of NewPdfStep, CleanStep and StartStep hold in the
    program only for one-upload batches. The orphaned timer can also
    finalize a later batch before its quiet period is over.
    OrphanedTimerKeepsAccounting shows that such a late firing still keeps
    the file accounting and the labelling.
  - An upload can cancel a timer in the middle of `send_document`. This
    happens when the running timer's handle is still recorded, as in a
    one-upload batch. `CancelledError` is not an `Exception`, so the
    handlers at bot.py:1293 and 1324 do not catch it. The list (the old
    files plus the new one) and the counter stay as they were. The next
    timer renders the old files again under the same label, so the batch
    is sent twice.
  - An upload can be lost. `create_and_send_pdf` holds the list object
    it read at bot.py:1151 while it awaits `send_document`. A `collect`
    that runs during that await appends to the same object at bot.py:968.
    If the batch was re-armed, the handle is gone and the check at
    bot.py:974 cancels nothing. The finalize then resumes: the loop at
    bot.py:1302-1306 deletes the new file, and bot.py:1316 clears the list.
    The new upload's timer later finds an empty list.
  - A label can advance by one. `collect` decides the bump at bot.py:936
    before it awaits `get_file` and `download_to_drive`
    (bot.py:942-950). A finalize that completes inside that window leaves
    the list `[]` and the counter at label + 1. The upload is then
    appended to the new list without a bump, so the next PDF is labelled
    last + 1, not last + 2.
- Python's own exceptions inside `collect` reach no handler there. A
  document without a name, or a failed download or image conversion, ends
  the handler after the counter bump. The model shows this as the reply
  `UploadFailed`.
- TextClean.CleanText: the mojibake entries are an abstract list, and
  bytes input, `None` input and the `except` branch are not modelled.
- PyStr.Lower: lower-cases ASCII letters only. This is the case that
  matters for the extensions compared at bot.py:1171-1231.
- Layout.RowText: takes the cells already converted with `str()`.
- Layout.StoredPath: the time stamp is a parameter, not a clock reading.
- Layout.Progress: does not state the message text or the emoji. It
  gives the cells, the percentage and the count.
- Entry points, the web hook, configuration and the admin commands are
  not modelled.
- `Apply` follows the handlers registered on the first Application
  (bot.py:1528-1550), which `main` never starts. The Application it serves
  (bot.py:1556-1580) differs in two ways, which the model does not follow:
  - it has no `status` handler, so `/status` goes unanswered;
  - its "check_subscription" button runs `start` (bot.py:1580), so the
    button acts as `StartStep`, not `ConfirmStep`.
- Both registrations pass only documents and photos to `collect`
  (bot.py:1550, 1567-1571). The model keeps the `FileNotFound` branch of
  bot.py:964-966 even though that filter makes it unreachable.

=== FILE: handlers.dfy ===
/**
  The bot's handlers as they run against its three module-level
  dictionaries, each proved to leave the dictionaries as the matching
  function of the Scheduler module says and to keep its invariant.
*/
module Handlers {
  import opened Layout
  import opened Scheduler

  /** `user_files`, `user_pdf_counter` and `user_tasks`; a live timer task
      is represented by the user's presence in `tasks`. */
  class BatchState {
    var userFiles: map<UserId, seq<Path>>
    var pdfCounter: map<UserId, int>
    var tasks: set<UserId>

    function State(): Store
      reads this
    {
      Store(userFiles, pdfCounter, tasks)
    }

    ghost predicate Valid()
      reads this
    {
      Inv(State())
    }

    /** The three dictionaries start empty. */
    constructor ()
      ensures State() == Initial && Valid()
    {
      userFiles := map[];
      pdfCounter := map[];
      tasks := {};
    }

    /** `collect`, for a message from `user`. */
    method Collect(user: UserId, gate: bool, upload: Upload, fetched: bool, stamp: string) returns (reply: Reply)
      requires Valid()
      modifies this
      ensures Valid()
      ensures Step(State(), reply) == CollectStep(old(State()), user, gate, upload, fetched, stamp)
    {
      if !gate {
        return MustSubscribe;
      }
      if user !in userFiles {
        userFiles := userFiles[user := []];
        pdfCounter := pdfCounter[user := 1];
      }
      if |userFiles[user]| == 0 && user in pdfCounter {
        pdfCounter := pdfCounter[user := pdfCounter[user] + 1];
      }
      assert State() == OpenBatch(old(State()), user);
      var added: seq<Path> := [];
      match upload {
        case Document(name) =>
          if !fetched || name.None? {
            return UploadFailed;
          }
          added := [StoredPath(user, stamp, upload)];
        case Photo(_) =>
          if !fetched {
            return UploadFailed;
          }
          added := [StoredPath(user, stamp, upload)];
        case NoAttachment =>
      }
      if added == [] {
        return FileNotFound;
      }
      assert Storable(upload) && fetched && added == [StoredPath(user, stamp, upload)];
      userFiles := userFiles[user := userFiles[user] + added];
      reply := ProgressShown(Progress(|userFiles[user]|), CounterOf(State(), user));
      tasks := tasks + {user};
    }

    /** `delayed_pdf`, once the user's timer has run out. */
    method DelayedPdf(user: UserId, noticeSent: bool, delivery: Delivery) returns (reply: Reply)
      requires Valid()
      modifies this
      ensures Valid()
      ensures Step(State(), reply) == FireStep(old(State()), user, noticeSent, delivery)
    {
      var files := FilesOf(State(), user);
      if files == [] {
        tasks := tasks - {user};
        return TimerIdle;
      }
      if !noticeSent {
        reply := NoticeFailed;
      } else {
        reply := CreateAndSendPdf(user, delivery);
      }
      tasks := tasks - {user};
    }

    /** `create_and_send_pdf`: rendering and sending are the `delivery` outcome. */
    method CreateAndSendPdf(user: UserId, delivery: Delivery) returns (reply: Reply)
      requires Valid()
      modifies this
      ensures Valid()
      ensures Step(State(), reply) == FinalizeStep(old(State()), user, delivery)
    {
      var files := FilesOf(State(), user);
      if files == [] {
        return Ran(NothingToSend);
      }
      var current := CounterOf(State(), user);
      if delivery == Raised {
        return Ran(Crashed);
      }
      userFiles := userFiles[user := []];
      pdfCounter := pdfCounter[user := current + 1];
      reply := Ran(Completed(current, files, delivery == Delivered));
    }

    /** `new_pdf`: finalize now if files are waiting. */
    method NewPdf(user: UserId, gate: bool, delivery: Delivery) returns (reply: Reply)
      requires Valid()
      modifies this
      ensures Valid()
      ensures Step(State(), reply) == NewPdfStep(old(State()), user, gate, delivery)
    {
      if !gate {
        return MustSubscribe;
      }
      if FilesOf(State(), user) != [] {
        if user in tasks {
          tasks := tasks - {user};
        }
        reply := CreateAndSendPdf(user, delivery);
      } else {
        reply := SendFilesFirst;
      }
    }

    /** `clean`. */
    method Clean(user: UserId, gate: bool) returns (reply: Reply)
      requires Valid()
      modifies this
      ensures Valid()
      ensures Step(State(), reply) == CleanStep(old(State()), user, gate)
    {
      if !gate {
        return MustSubscribe;
      }
      if user in tasks {
        tasks := tasks - {user};
      }
      if user in userFiles {
        userFiles := userFiles[user := []];
      }
      pdfCounter := pdfCounter[user := 1];
      reply := AllCleaned;
    }

    /** The state part of `start`. */
    method Start(user: UserId) returns (reply: Reply)
      requires Valid()
      modifies this
      ensures Valid()
      ensures Step(State(), reply) == StartStep(old(State()), user)
    {
      userFiles := userFiles[user := []];
      pdfCounter := pdfCounter[user := 1];
      if user in tasks {
        tasks := tasks - {user};
      }
      reply := Welcome;
    }

    /** The state part of `check_subscription_callback`. */
    method CheckSubscriptionCallback(user: UserId, confirmed: bool) returns (reply: Reply)
      requires Valid()
      modifies this
      ensures Valid()
      ensures Step(State(), reply) == ConfirmStep(old(State()), user, confirmed)
    {
      if confirmed {
        userFiles := userFiles[user := []];
        pdfCounter := pdfCounter[user := 1];
        reply := Confirmed;
      } else {
        reply := NotConfirmed;
      }
    }

    /** `status`: reads the dictionaries and changes nothing. */
    method Status(user: UserId, gate: bool) returns (reply: Reply)
      ensures reply == StatusOf(State(), user, gate)
    {
      if !gate {
        return MustSubscribe;
      }
      if user in userFiles {
        var count := |userFiles[user]|;
        var current := CounterOf(State(), user);
        if count > 0 {
          reply := Waiting(current, count);
        } else {
          reply := Idle(current);
        }
      } else {
        reply := ReadyForFiles;
      }
    }
  }
}

=== FILE: layout.dfy ===
/**
  The small computations around a batch that do not touch the per-user
  state: the progress message shown after each upload, the text of one
  spreadsheet row, the name under which an upload is stored, and the
  choice of renderer from a stored file's extension.
*/
module Layout {
  import opened Wrappers
  import opened PyStr

  type UserId = int

  /** Where an uploaded file was stored. */
  type Path = string

  function Min(a: int, b: int): int {
    if a <= b then a else b
  }

  // ---------------------------------------------------------------------
  // Progress message
  // ---------------------------------------------------------------------

  const BarLength: nat := 10

  datatype Cell = Filled | Blank

  /** What the progress message shows: the bar, the percentage and the
      number of files collected so far. */
  datatype ProgressView = ProgressView(bar: seq<Cell>, percent: int, total: nat)

  function Repeat(c: Cell, n: nat): (r: seq<Cell>)
    ensures |r| == n && forall i :: 0 <= i < n ==> r[i] == c
  {
    seq(n, _ => c)
  }

  /** The progress part of `show_progress_message` for `total` collected
      files: no message at all for none, otherwise a ten-cell bar whose
      first cells are filled, one per file, and a percentage. */
  function Progress(total: nat): (r: Option<ProgressView>)
    ensures r.None? <==> total == 0
    ensures r.Some? ==> |r.value.bar| == BarLength && r.value.total == total
    ensures r.Some? ==> forall i :: 0 <= i < BarLength ==> (r.value.bar[i] == Filled <==> i < total)
    ensures r.Some? ==> 10 <= r.value.percent <= 100
  {
    if total == 0 then None
    else
      var filled := Min(BarLength, total);
      Some(ProgressView(Repeat(Filled, filled) + Repeat(Blank, BarLength - filled), Min(100, total * 10), total))
  }

  function FilledCount(bar: seq<Cell>): nat
    decreases |bar|
  {
    if bar == [] then 0 else (if bar[0] == Filled then 1 else 0) + FilledCount(bar[1..])
  }

  lemma {:induction false} FilledCountOfBar(filled: nat, blank: nat)
    ensures FilledCount(Repeat(Filled, filled) + Repeat(Blank, blank)) == filled
    decreases filled + blank
  {
    var bar := Repeat(Filled, filled) + Repeat(Blank, blank);
    if filled > 0 {
      assert bar[1..] == Repeat(Filled, filled - 1) + Repeat(Blank, blank);
      FilledCountOfBar(filled - 1, blank);
    } else if blank > 0 {
      assert bar[1..] == Repeat(Filled, 0) + Repeat(Blank, blank - 1);
      FilledCountOfBar(0, blank - 1);
    }
  }

  /** The percentage always agrees with the bar: ten per filled cell, and
      100 exactly when the bar is full, which takes ten files. */
  lemma ProgressPercentMatchesBar(total: nat)
    requires total > 0
    ensures Progress(total).value.percent == 10 * FilledCount(Progress(total).value.bar)
    ensures Progress(total).value.percent == 100 <==> total >= BarLength
  {
    var filled := Min(BarLength, total);
    FilledCountOfBar(filled, BarLength - filled);
  }

  // ---------------------------------------------------------------------
  // Spreadsheet rows
  // ---------------------------------------------------------------------

  const RowLimit: nat := 150
  const RowSeparator := " | "

  /** The line written for one spreadsheet row: the cells joined with
      " | ", cut to 147 characters plus "..." when longer than 150. */
  function RowText(cells: seq<string>): (r: string)
    ensures |r| <= RowLimit
    ensures |Join(RowSeparator, cells)| <= RowLimit ==> r == Join(RowSeparator, cells)
    ensures |Join(RowSeparator, cells)| > RowLimit ==>
      |r| == RowLimit && r[..RowLimit - 3] == Join(RowSeparator, cells)[..RowLimit - 3] && r[RowLimit - 3..] == "..."
  {
    var text := Join(RowSeparator, cells);
    if |text| > RowLimit then text[..RowLimit - 3] + "..." else text
  }

  /** A row is shortened exactly when its cells and separators together
      exceed 150 characters. */
  lemma RowShortenedIff(cells: seq<string>)
    ensures RowText(cells) != Join(RowSeparator, cells)
        <==> TotalLength(cells) + 3 * (|cells| - 1) > RowLimit
  {
    if cells != [] {
      JoinLength(RowSeparator, cells);
    }
  }

  // ---------------------------------------------------------------------
  // Stored file names
  // ---------------------------------------------------------------------

  /** A document's own name with each '/' and '\' turned into '_'. */
  function SafeFilename(name: string): (r: string)
    ensures |r| == |name|
    ensures forall i :: 0 <= i < |name| ==>
      r[i] == (if name[i] == '/' || name[i] == '\\' then '_' else name[i])
    ensures '/' !in r && '\\' !in r
  {
    var r1 := Replace(name, "/", "_");
    ReplaceCharByChar(name, '/', '_');
    ReplaceCharByChar(r1, '\\', '_');
    Replace(r1, "\\", "_")
  }

  /** What a message carries: a document (whose name may be missing), a
      photo, or neither. */
  datatype Upload = Document(fileName: Option<string>) | Photo(fileId: string) | NoAttachment

  /** The attachments `collect` can store: a photo, or a document with a name. */
  predicate Storable(upload: Upload) {
    upload.Photo? || (upload.Document? && upload.fileName.Some?)
  }

  /** The path an upload is stored under: "temp/<user>_<stamp>_<name>",
      the name being the safe document name or "<file id>.jpg". */
  function StoredPath(user: UserId, stamp: string, upload: Upload): (p: Path)
    requires Storable(upload)
    ensures |p| > 5 && p[..5] == "temp/"
  {
    var prefix := "temp/" + IntToString(user) + "_" + stamp + "_";
    match upload
    case Document(name) => prefix + SafeFilename(name.value)
    case Photo(id) => prefix + id + ".jpg"
  }

  // ---------------------------------------------------------------------
  // Extension dispatch
  // ---------------------------------------------------------------------

  /** The renderer a stored file goes to. */
  datatype Kind = Image | Word | Spreadsheet | Unknown(ext: string)

  /** The branch `create_and_send_pdf` takes for a lower-cased extension. */
  function KindOfExtension(ext: string): (k: Kind)
    ensures k == Image <==> ext in [".jpg", ".jpeg", ".png"]
    ensures k == Word <==> ext == ".docx"
    ensures k == Spreadsheet <==> ext in [".xlsx", ".xls"]
    ensures k.Unknown? ==> k.ext == ext
  {
    if ext == ".jpg" || ext == ".jpeg" || ext == ".png" then Image
    else if ext == ".docx" then Word
    else if ext == ".xlsx" || ext == ".xls" then Spreadsheet
    else Unknown(ext)
  }

  /** The branch taken for a stored file: only a file with an extension
      of at least four characters reaches a renderer, and an unknown
      extension is reported lower-cased. */
  function KindOf(path: Path): (k: Kind)
    ensures !k.Unknown? ==> |Ext(path)| >= 4 && Ext(path)[0] == '.'
    ensures k.Unknown? ==> k.ext == Lower(Ext(path))
  {
    KindOfExtension(Lower(Ext(path)))
  }

  /** A stored photo always reaches the image renderer, whatever its file
      id and time stamp, as long as neither holds a '/'. */
  lemma PhotoGoesToImage(user: UserId, stamp: string, id: string)
    requires '/' !in stamp && '/' !in id
    ensures KindOf(StoredPath(user, stamp, Photo(id))) == Image
  {
    var u := IntToString(user);
    var name := u + "_" + stamp + "_" + id;
    assert StoredPath(user, stamp, Photo(id)) == "temp/" + name + ".jpg";
    assert '/' !in u by {
      forall k | 0 <= k < |u| ensures u[k] != '/' {}
    }
    assert name[0] == u[0];
    ExtOfComponent("temp/", name, ".jpg");
    assert Lower(".jpg") == ".jpg";
  }

  /** A stored document keeps the extension of its sanitised name, so the
      renderer is chosen by the name the user gave. */
  lemma DocumentKeepsExtension(user: UserId, stamp: string, name: string, base: string, ext: string)
    requires '/' !in stamp
    requires SafeFilename(name) == base + ext
    requires ext != [] && ext[0] == '.' && '.' !in ext[1..]
    ensures Ext(StoredPath(user, stamp, Document(Some(name)))) == ext
    ensures KindOf(StoredPath(user, stamp, Document(Some(name)))) == KindOfExtension(Lower(ext))
  {
    var u := IntToString(user);
    var stem := u + "_" + stamp + "_" + base;
    assert StoredPath(user, stamp, Document(Some(name))) == "temp/" + stem + ext;
    assert '/' !in u by {
      forall k | 0 <= k < |u| ensures u[k] != '/' {}
    }
    assert '/' !in SafeFilename(name);
    assert '/' !in base && '/' !in ext by {
      forall k | 0 <= k < |base| ensures base[k] != '/' {
        assert (base + ext)[k] == base[k];
      }
      forall k | 0 <= k < |ext| ensures ext[k] != '/' {
        assert (base + ext)[|base| + k] == ext[k];
      }
    }
    assert stem[0] == u[0];
    ExtOfComponent("temp/", stem, ext);
  }
}

=== FILE: pystr.dfy ===
/** Option, for Python values that may be None. */
module Wrappers {
  datatype Option<+T> = None | Some(value: T)
}

/**
  The Python string built-ins the bot relies on (str.replace, str.strip,
  str.isspace, str.join, str.lower, os.path.splitext, int formatting),
  written out with Python's semantics on strings of code points.
*/
module PyStr {

  // ---------------------------------------------------------------------
  // str.replace
  // ---------------------------------------------------------------------

  /** `s.replace(pat, rep)`: every non-overlapping occurrence of `pat`,
      found scanning left to right, becomes `rep`. An empty `pat` matches
      before every character and at the end. */
  function Replace(s: string, pat: string, rep: string): (r: string)
    ensures pat != [] && rep == pat ==> r == s
    ensures pat != [] && |rep| == |pat| ==> |r| == |s|
    decreases |s|
  {
    if pat == [] then Interleave(s, rep)
    else if |s| < |pat| then s
    else if s[..|pat|] == pat then rep + Replace(s[|pat|..], pat, rep)
    else [s[0]] + Replace(s[1..], pat, rep)
  }

  /** `s.replace("", sep)`. */
  function Interleave(s: string, sep: string): string
    decreases |s|
  {
    if s == [] then sep else sep + [s[0]] + Interleave(s[1..], sep)
  }

  lemma {:induction false} InterleaveKeepsAbsent(s: string, sep: string, c: char)
    requires c !in s && c !in sep
    ensures c !in Interleave(s, sep)
    decreases |s|
  {
    if s != [] {
      assert c !in s[1..] by { assert forall x :: x in s[1..] ==> x in s; }
      InterleaveKeepsAbsent(s[1..], sep, c);
    }
  }

  /** A replacement that does not mention `c` in `rep` cannot bring `c` in. */
  lemma {:induction false} ReplaceKeepsAbsent(s: string, pat: string, rep: string, c: char)
    requires c !in s && c !in rep
    ensures c !in Replace(s, pat, rep)
    decreases |s|
  {
    if pat == [] {
      InterleaveKeepsAbsent(s, rep, c);
    } else if |s| < |pat| {
    } else if s[..|pat|] == pat {
      assert c !in s[|pat|..] by { assert forall x :: x in s[|pat|..] ==> x in s; }
      ReplaceKeepsAbsent(s[|pat|..], pat, rep, c);
    } else {
      assert c !in s[1..] by { assert forall x :: x in s[1..] ==> x in s; }
      ReplaceKeepsAbsent(s[1..], pat, rep, c);
    }
  }

  /** Replacing a single character by a text without it removes it entirely. */
  lemma {:induction false} ReplaceCharRemoves(s: string, c: char, rep: string)
    requires c !in rep
    ensures c !in Replace(s, [c], rep)
    decreases |s|
  {
    if |s| >= 1 {
      ReplaceCharRemoves(s[1..], c, rep);
    }
  }

  /** Replacing a single character works piecewise over a concatenation. */
  lemma {:induction false} ReplaceCharConcat(a: string, b: string, c: char, rep: string)
    ensures Replace(a + b, [c], rep) == Replace(a, [c], rep) + Replace(b, [c], rep)
    decreases |a|
  {
    if a == [] {
      assert a + b == b;
    } else {
      assert (a + b)[..1] == a[..1];
      assert (a + b)[1..] == a[1..] + b;
      ReplaceCharConcat(a[1..], b, c, rep);
    }
  }

  /** Replacing one character by another keeps the length and changes
      exactly the positions that held it. */
  lemma {:induction false} ReplaceCharByChar(s: string, c: char, d: char)
    ensures |Replace(s, [c], [d])| == |s|
    ensures forall i :: 0 <= i < |s| ==> Replace(s, [c], [d])[i] == (if s[i] == c then d else s[i])
    decreases |s|
  {
    if |s| >= 1 {
      ReplaceCharByChar(s[1..], c, d);
      var rest := Replace(s[1..], [c], [d]);
      assert Replace(s, [c], [d]) == [if s[0] == c then d else s[0]] + rest;
      forall i | 0 <= i < |s|
        ensures Replace(s, [c], [d])[i] == (if s[i] == c then d else s[i])
      {
        if i > 0 { assert s[i] == s[1..][i - 1]; }
      }
    }
  }

  /** `s` with every `c` dropped, one character at a time. */
  function Without(s: string, c: char): string
    decreases |s|
  {
    if s == [] then [] else Without(s[..|s| - 1], c) + (if s[|s| - 1] == c then [] else [s[|s| - 1]])
  }

  /** Replacing a single character by nothing drops exactly its
      occurrences and keeps the rest in order. */
  lemma {:induction false} ReplaceCharByNothing(s: string, c: char)
    ensures Replace(s, [c], "") == Without(s, c)
    decreases |s|
  {
    if s != [] {
      var init := s[..|s| - 1];
      var tail := [s[|s| - 1]];
      assert s == init + tail;
      ReplaceCharConcat(init, tail, c, "");
      ReplaceCharByNothing(init, c);
      assert tail[..1] == tail;
    }
  }

  /** `pat` occurs in `s` starting at index `i`. */
  predicate MatchAt(s: string, pat: string, i: int) {
    0 <= i && i + |pat| <= |s| && s[i..i + |pat|] == pat
  }

  predicate Occurs(s: string, pat: string) {
    exists i :: 0 <= i <= |s| && MatchAt(s, pat, i)
  }

  /** A text with no occurrence of the pattern passes unchanged. */
  lemma {:induction false} ReplaceNoMatch(s: string, pat: string, rep: string)
    requires pat != [] && !Occurs(s, pat)
    ensures Replace(s, pat, rep) == s
    decreases |s|
  {
    if |s| >= |pat| {
      assert !MatchAt(s, pat, 0);
      assert s[0..0 + |pat|] == s[..|pat|];
      forall i ensures !MatchAt(s[1..], pat, i) {
        if MatchAt(s[1..], pat, i) {
          assert s[1..][i..i + |pat|] == s[i + 1..i + 1 + |pat|];
          assert MatchAt(s, pat, i + 1);
        }
      }
      ReplaceNoMatch(s[1..], pat, rep);
    }
  }

  /** A CRLF pair is replaced on its own: nothing before it can swallow
      its carriage return, because a match of "\r\n" needs a '\n' second. */
  lemma {:induction false} ReplaceCrLfSplits(a: string, b: string)
    ensures Replace(a + "\r\n" + b, "\r\n", "\n")
         == Replace(a, "\r\n", "\n") + "\n" + Replace(b, "\r\n", "\n")
    decreases |a|
  {
    var s := a + "\r\n" + b;
    if a == [] {
      assert s == "\r\n" + b;
      assert s[..2] == "\r\n";
      assert s[2..] == b;
    } else if |a| == 1 {
      assert s[..2] == [a[0], '\r'];
      assert s[1..] == "\r\n" + b;
      assert s[1..][..2] == "\r\n";
      assert s[1..][2..] == b;
    } else if a[..2] == "\r\n" {
      assert s[..2] == a[..2];
      assert s[2..] == a[2..] + "\r\n" + b;
      ReplaceCrLfSplits(a[2..], b);
    } else {
      assert s[..2] == a[..2];
      assert s[1..] == a[1..] + "\r\n" + b;
      ReplaceCrLfSplits(a[1..], b);
    }
  }

  // ---------------------------------------------------------------------
  // str.isspace, str.strip
  // ---------------------------------------------------------------------

  /** The characters Python counts as whitespace (str.isspace). */
  predicate IsSpace(c: char) {
    || c == ' '
    || '\t' <= c <= '\r'
    || '\U{1c}' <= c <= '\U{1f}'
    || c == '\U{85}' || c == '\U{a0}' || c == '\U{1680}'
    || '\U{2000}' <= c <= '\U{200a}'
    || c == '\U{2028}' || c == '\U{2029}' || c == '\U{202f}' || c == '\U{205f}' || c == '\U{3000}'
  }

  /** `s.isspace()`: true only for a non-empty string of whitespace. */
  predicate IsSpaceString(s: string) {
    |s| > 0 && forall i :: 0 <= i < |s| ==> IsSpace(s[i])
  }

  /** `s.lstrip()`. */
  function TrimStart(s: string): (r: string)
    ensures |r| <= |s| && r == s[|s| - |r|..]
    ensures r != [] ==> !IsSpace(r[0])
    ensures forall i :: 0 <= i < |s| - |r| ==> IsSpace(s[i])
    decreases |s|
  {
    if s != [] && IsSpace(s[0]) then TrimStart(s[1..]) else s
  }

  /** `s.rstrip()`. */
  function TrimEnd(s: string): (r: string)
    ensures |r| <= |s| && r == s[..|r|]
    ensures r != [] ==> !IsSpace(r[|r| - 1])
    ensures forall i :: |r| <= i < |s| ==> IsSpace(s[i])
    decreases |s|
  {
    if s != [] && IsSpace(s[|s| - 1]) then TrimEnd(s[..|s| - 1]) else s
  }

  /** `s.strip()`: the string without its leading and trailing whitespace. */
  function Strip(s: string): (r: string)
    ensures NoEdgeSpace(r)
    ensures forall c :: c in r ==> c in s
    ensures (forall i :: 0 <= i < |s| ==> IsSpace(s[i])) ==> r == []
    ensures StrippedFrom(s, r)
  {
    var t := TrimStart(s);
    var r := TrimEnd(t);
    StripFacts(s, t, r);
    r
  }

  /** Strip's contract, from what `lstrip` and `rstrip` guarantee. */
  lemma StripFacts(s: string, t: string, r: string)
    requires t == TrimStart(s) && r == TrimEnd(t)
    ensures NoEdgeSpace(r)
    ensures forall c :: c in r ==> c in s
    ensures (forall i :: 0 <= i < |s| ==> IsSpace(s[i])) ==> r == []
    ensures StrippedFrom(s, r)
  {
    StripSlice(s, t, r);
    StripEdges(t, r);
    StripKeepsChars(s, t, r);
    StripBlank(s, t, r);
  }

  /** Neither end of `r` is whitespace. */
  predicate NoEdgeSpace(r: string) {
    r != [] ==> !IsSpace(r[0]) && !IsSpace(r[|r| - 1])
  }

  /** `r` is `s` with some whitespace removed from its two ends only. */
  predicate StrippedFrom(s: string, r: string) {
    exists i, j :: 0 <= i <= j <= |s| && StripCut(s, r, i, j)
  }

  predicate StripCut(s: string, r: string, i: int, j: int)
    requires 0 <= i <= j <= |s|
  {
    && r == s[i..j]
    && (forall k :: 0 <= k < i ==> IsSpace(s[k]))
    && (forall k :: j <= k < |s| ==> IsSpace(s[k]))
  }

  lemma StripSlice(s: string, t: string, r: string)
    requires |t| <= |s| && t == s[|s| - |t|..]
    requires forall k :: 0 <= k < |s| - |t| ==> IsSpace(s[k])
    requires |r| <= |t| && r == t[..|r|]
    requires forall k :: |r| <= k < |t| ==> IsSpace(t[k])
    ensures StrippedFrom(s, r)
  {
    var i := |s| - |t|;
    var j := i + |r|;
    assert r == s[i..j];
    forall k | j <= k < |s| ensures IsSpace(s[k]) {
      assert s[k] == t[k - i] && IsSpace(t[k - i]);
    }
    assert StripCut(s, r, i, j);
  }

  lemma StripEdges(t: string, r: string)
    requires |r| <= |t| && r == t[..|r|]
    requires t != [] ==> !IsSpace(t[0])
    requires r != [] ==> !IsSpace(r[|r| - 1])
    ensures r != [] ==> !IsSpace(r[0]) && !IsSpace(r[|r| - 1])
  {
    if r != [] {
      assert r[0] == t[0];
    }
  }

  lemma StripKeepsChars(s: string, t: string, r: string)
    requires |t| <= |s| && t == s[|s| - |t|..]
    requires |r| <= |t| && r == t[..|r|]
    ensures forall c :: c in r ==> c in s
  {
    forall c | c in r ensures c in s {
      var i :| 0 <= i < |r| && r[i] == c;
      assert s[|s| - |t| + i] == c;
    }
  }

  lemma StripBlank(s: string, t: string, r: string)
    requires |t| <= |s| && t == s[|s| - |t|..]
    requires t != [] ==> !IsSpace(t[0])
    requires |r| <= |t|
    ensures (forall i :: 0 <= i < |s| ==> IsSpace(s[i])) ==> r == []
  {
    if t != [] {
      assert t[0] == s[|s| - |t|];
    }
  }

  /** A replacement whose `pat` holds a non-space character never matches
      inside a whitespace-only string, so it leaves the string alone. */
  lemma {:induction false} ReplaceInSpacesIsIdentity(s: string, pat: string, rep: string)
    requires forall i :: 0 <= i < |s| ==> IsSpace(s[i])
    requires exists j :: 0 <= j < |pat| && !IsSpace(pat[j])
    ensures Replace(s, pat, rep) == s
    decreases |s|
  {
    if |s| >= |pat| {
      var j :| 0 <= j < |pat| && !IsSpace(pat[j]);
      assert s[..|pat|][j] == s[j];
      ReplaceInSpacesIsIdentity(s[1..], pat, rep);
    }
  }

  /** Replacing by whitespace keeps a whitespace-only string whitespace-only. */
  lemma {:induction false} ReplaceKeepsSpaces(s: string, pat: string, rep: string)
    requires pat != []
    requires forall i :: 0 <= i < |s| ==> IsSpace(s[i])
    requires forall i :: 0 <= i < |rep| ==> IsSpace(rep[i])
    ensures forall i :: 0 <= i < |Replace(s, pat, rep)| ==> IsSpace(Replace(s, pat, rep)[i])
    decreases |s|
  {
    if |s| < |pat| {
    } else if s[..|pat|] == pat {
      ReplaceKeepsSpaces(s[|pat|..], pat, rep);
      var rest := Replace(s[|pat|..], pat, rep);
      assert forall i :: 0 <= i < |rep + rest| ==> (rep + rest)[i] == (if i < |rep| then rep[i] else rest[i - |rep|]);
    } else {
      ReplaceKeepsSpaces(s[1..], pat, rep);
      var rest := Replace(s[1..], pat, rep);
      assert forall i :: 0 <= i < |[s[0]] + rest| ==> ([s[0]] + rest)[i] == (if i < 1 then s[0] else rest[i - 1]);
    }
  }

  // ---------------------------------------------------------------------
  // str.join
  // ---------------------------------------------------------------------

  /** `sep.join(items)`. */
  function Join(sep: string, items: seq<string>): (r: string)
    ensures items != [] ==> |items[0]| <= |r| && r[..|items[0]|] == items[0]
    ensures items != [] ==> |Last(items)| <= |r| && r[|r| - |Last(items)|..] == Last(items)
    decreases |items|
  {
    if items == [] then ""
    else if |items| == 1 then items[0]
    else items[0] + sep + Join(sep, items[1..])
  }

  /** Joining one more item appends the separator and the item. */
  lemma {:induction false} JoinSnoc(sep: string, items: seq<string>, x: string)
    requires items != []
    ensures Join(sep, items + [x]) == Join(sep, items) + sep + x
    decreases |items|
  {
    var longer := items + [x];
    assert longer[0] == items[0] && |longer| > 1;
    if |items| == 1 {
      assert longer[1..] == [x];
    } else {
      var rest := items[1..];
      assert longer[1..] == rest + [x];
      JoinSnoc(sep, rest, x);
      var a, b := Join(sep, rest), Join(sep, rest + [x]);
      assert b == a + sep + x;
      assert items[0] + sep + b == (items[0] + sep + a) + sep + x;
    }
  }

  function Last(items: seq<string>): string
    requires items != []
  {
    items[|items| - 1]
  }

  /** Total length of a list of strings. */
  function TotalLength(items: seq<string>): nat
    decreases |items|
  {
    if items == [] then 0 else |items[0]| + TotalLength(items[1..])
  }

  /** The joined text holds every item and one separator between each pair. */
  lemma {:induction false} JoinLength(sep: string, items: seq<string>)
    requires items != []
    ensures |Join(sep, items)| == TotalLength(items) + |sep| * (|items| - 1)
    decreases |items|
  {
    if |items| > 1 {
      JoinLength(sep, items[1..]);
      assert |Join(sep, items)| == |items[0]| + |sep| + |Join(sep, items[1..])|;
      assert |sep| * (|items| - 1) == |sep| * (|items[1..]| - 1) + |sep|;
    }
  }

  // ---------------------------------------------------------------------
  // str.rfind, os.path.splitext, str.lower
  // ---------------------------------------------------------------------

  /** `s.rfind(c)`: the last index holding `c`, or -1. */
  function RFind(s: string, c: char): (r: int)
    ensures -1 <= r < |s|
    ensures r >= 0 ==> s[r] == c
    ensures forall k :: r < k < |s| ==> s[k] != c
    decreases |s|
  {
    if s == [] then -1
    else if s[|s| - 1] == c then |s| - 1
    else RFind(s[..|s| - 1], c)
  }

  /** Some character of `p[lo..hi]` is not a dot. */
  predicate HasNonDot(p: string, lo: int, hi: int)
    requires 0 <= lo <= hi <= |p|
  {
    exists k :: lo <= k < hi && p[k] != '.'
  }

  /** The second half of POSIX `os.path.splitext(p)`: from the last '.' of
      the last path component, unless everything before that dot in the
      component is a dot too (a hidden file such as ".bashrc" has none). */
  function Ext(p: string): (r: string)
    ensures |r| <= |p|
    ensures r == [] || (r[0] == '.' && r == p[|p| - |r|..] && '/' !in r && '.' !in r[1..])
  {
    var sepIndex := RFind(p, '/');
    var dotIndex := RFind(p, '.');
    if dotIndex > sepIndex && HasNonDot(p, sepIndex + 1, dotIndex) then
      var r := p[dotIndex..];
      assert forall k :: 0 <= k < |r| ==> r[k] == p[dotIndex + k];
      r
    else ""
  }

  /** The extension of "<dir>/<name><ext>" is `ext` when `ext` is a dot
      followed by neither dot nor separator, and the name holds no
      separator and does not start with a dot. */
  lemma ExtOfComponent(dir: string, name: string, ext: string)
    requires dir != [] && dir[|dir| - 1] == '/'
    requires '/' !in name && name != [] && name[0] != '.'
    requires ext != [] && ext[0] == '.' && '/' !in ext && '.' !in ext[1..]
    ensures Ext(dir + name + ext) == ext
  {
    var p := dir + name + ext;
    var sep := |dir| - 1;
    var dot := |dir| + |name|;
    assert p[sep] == '/' && p[dot] == '.' && p[sep + 1] == name[0];
    forall k | sep < k < |p| ensures p[k] != '/' {
      if k < dot { assert p[k] == name[k - sep - 1]; }
      else { assert p[k] == ext[k - dot]; }
    }
    forall k | dot < k < |p| ensures p[k] != '.' {
      assert p[k] == ext[1..][k - dot - 1];
    }
    assert RFind(p, '/') == sep;
    assert RFind(p, '.') == dot;
    assert HasNonDot(p, sep + 1, dot);
    assert p[dot..] == ext;
  }

  /** `c.lower()` for ASCII letters; every other character is kept. */
  function LowerChar(c: char): char {
    if 'A' <= c <= 'Z' then (c as int + 32) as char else c
  }

  /** `s.lower()`, ASCII letters only. */
  function Lower(s: string): (r: string)
    ensures |r| == |s|
    ensures forall i :: 0 <= i < |s| ==> r[i] == LowerChar(s[i])
  {
    seq(|s|, i requires 0 <= i < |s| => LowerChar(s[i]))
  }

  // ---------------------------------------------------------------------
  // f"{n}" for an int
  // ---------------------------------------------------------------------

  predicate IsDigit(c: char) {
    '0' <= c <= '9'
  }

  /** Decimal digits of a natural number. */
  function NatToString(n: nat): (r: string)
    ensures r != []
    ensures forall i :: 0 <= i < |r| ==> IsDigit(r[i])
    decreases n
  {
    if n < 10 then [DigitChar(n)]
    else NatToString(n / 10) + [DigitChar(n % 10)]
  }

  function DigitChar(d: nat): (c: char)
    requires d < 10
    ensures IsDigit(c)
  {
    ('0' as int + d) as char
  }

  /** The number a string of decimal digits denotes, most significant first. */
  function DigitsValue(r: string): int
    decreases |r|
  {
    if r == [] then 0 else DigitsValue(r[..|r| - 1]) * 10 + (r[|r| - 1] as int - '0' as int)
  }

  /** The digits denote `n`, and only 0 is written with a leading '0'. */
  lemma {:induction false} NatToStringValue(n: nat)
    ensures DigitsValue(NatToString(n)) == n
    ensures NatToString(n)[0] == '0' <==> n == 0
    decreases n
  {
    var r := NatToString(n);
    if n >= 10 {
      NatToStringValue(n / 10);
      assert r[..|r| - 1] == NatToString(n / 10);
      assert r[0] == NatToString(n / 10)[0];
    } else {
      assert r[..|r| - 1] == [];
    }
  }

  /** `str(i)`: an optional minus sign followed by decimal digits. */
  function IntToString(i: int): (r: string)
    ensures r != []
    ensures r[0] == '-' <==> i < 0
    ensures forall k :: 0 <= k < |r| ==> IsDigit(r[k]) || (k == 0 && r[k] == '-')
  {
    if i < 0 then "-" + NatToString(-i) else NatToString(i)
  }

  /** `str(i)` denotes `i`: the digits after an optional '-' give its
      magnitude, with no leading zero. */
  lemma IntToStringValue(i: int)
    ensures var r := IntToString(i);
      var digits := if i < 0 then r[1..] else r;
      && DigitsValue(digits) == (if i < 0 then -i else i)
      && digits != []
      && (digits[0] == '0' <==> i == 0)
  {
    var r := IntToString(i);
    if i < 0 {
      assert r[1..] == NatToString(-i);
      NatToStringValue(-i);
    } else {
      NatToStringValue(i);
    }
  }
}

=== FILE: scheduler.dfy ===
/**
  The per-user batching state of the bot as a value, and one function per
  handler giving the state the handler leaves behind and what it replies.

  The state is the three module-level dictionaries: `user_files` (the
  paths collected for the next PDF), `user_pdf_counter` (the number the
  next PDF is labelled with) and `user_tasks` (the users with a live
  three-second timer). Each handler is one atomic step; the expiry of a
  timer is an event of its own. Everything outside the bot's control is
  an argument: whether the subscription gate lets the user through,
  whether fetching an attachment succeeded, whether the "creating PDF"
  notice went out, and how rendering and delivery of the PDF ended.
*/
module Scheduler {
  import opened Wrappers
  import opened Layout

  datatype Store = Store(
    files: map<UserId, seq<Path>>,
    counter: map<UserId, int>,
    pending: set<UserId>)

  /** The state when the bot starts: three empty dictionaries. */
  const Initial := Store(map[], map[], {})

  /** `user_files.get(u, [])` */
  function FilesOf(s: Store, u: UserId): seq<Path> {
    if u in s.files then s.files[u] else []
  }

  /** `user_pdf_counter.get(u, 1)` */
  function CounterOf(s: Store, u: UserId): int {
    if u in s.counter then s.counter[u] else 1
  }

  /** What every handler keeps true: a user with a file list has a counter,
      a user with a live timer has a file list, and counters are positive. */
  ghost predicate Inv(s: Store) {
    && s.files.Keys <= s.counter.Keys
    && s.pending <= s.files.Keys
    && forall u :: u in s.counter ==> s.counter[u] >= 1
  }

  /** One user's three dictionary entries. */
  datatype Entry = Entry(files: Option<seq<Path>>, counter: Option<int>, pending: bool)

  function EntryOf(s: Store, u: UserId): Entry {
    Entry(
      if u in s.files then Some(s.files[u]) else None,
      if u in s.counter then Some(s.counter[u]) else None,
      u in s.pending)
  }

  /** How rendering and sending the PDF ended: sent; rendered but the send
      failed (and the failure notice went out); or an exception reached
      the outer handler before the batch was cleared. */
  datatype Delivery = Delivered | SendFailed | Raised

  /** What `create_and_send_pdf` did: nothing (empty list), finished a PDF
      with this label and these files, or gave up with the state untouched. */
  datatype Finalized =
    | NothingToSend
    | Completed(number: int, batch: seq<Path>, sent: bool)
    | Crashed

  datatype Reply =
    | MustSubscribe                                     // the subscription gate refused the user
    | FileNotFound                                      // collect: neither document nor photo
    | UploadFailed                                      // collect: fetching or storing the attachment raised
    | ProgressShown(progress: Option<ProgressView>, number: int)
    | TimerIdle                                         // delayed_pdf: the list was empty
    | NoticeFailed                                      // delayed_pdf: the "creating PDF" notice raised
    | Ran(result: Finalized)                            // create_and_send_pdf ran
    | SendFilesFirst                                    // new_pdf without files
    | AllCleaned                                        // clean
    | Welcome                                           // start
    | Confirmed | NotConfirmed                          // check_subscription_callback
    | ReadyForFiles | Waiting(next: int, count: nat) | Idle(next: int)   // status
    | NotArmed                                          // no timer was live for the user

  datatype Step = Step(store: Store, reply: Reply)

  // ---------------------------------------------------------------------
  // Handlers
  // ---------------------------------------------------------------------

  /** `create_and_send_pdf`: on a non-empty list, the PDF is labelled with
      the counter read at entry; once it is sent, or its failure reported,
      the list is emptied and the counter set to the label plus one. An
      exception before that point leaves everything as it was. */
  function FinalizeStep(s: Store, u: UserId, d: Delivery): (r: Step)
    ensures FilesOf(s, u) == [] ==> r == Step(s, Ran(NothingToSend))
    ensures FilesOf(s, u) != [] && d == Raised ==> r == Step(s, Ran(Crashed))
    ensures FilesOf(s, u) != [] && d != Raised ==>
      && r.reply == Ran(Completed(CounterOf(s, u), FilesOf(s, u), d == Delivered))
      && u in r.store.files && r.store.files[u] == []
      && u in r.store.counter && r.store.counter[u] == CounterOf(s, u) + 1
      && r.store.pending == s.pending
    ensures forall v :: v != u ==> EntryOf(r.store, v) == EntryOf(s, v)
    ensures Inv(s) ==> Inv(r.store)
  {
    var files := FilesOf(s, u);
    if files == [] then Step(s, Ran(NothingToSend))
    else if d == Raised then Step(s, Ran(Crashed))
    else
      var number := CounterOf(s, u);
      Step(s.(files := s.files[u := []], counter := s.counter[u := number + 1]),
           Ran(Completed(number, files, d == Delivered)))
  }

  /** The part of `collect` before the attachment is looked at: a new
      user gets an empty list and counter 1, and an empty list bumps the
      counter. */
  function OpenBatch(s: Store, u: UserId): (r: Store)
    ensures u in r.files && r.files[u] == FilesOf(s, u)
    ensures u !in s.files ==> u in r.counter && r.counter[u] == 2
    ensures u in s.files && s.files[u] == [] && u in s.counter ==>
      u in r.counter && r.counter[u] == s.counter[u] + 1
    ensures FilesOf(s, u) != [] ==> r == s
    ensures r.pending == s.pending
    ensures forall v :: v != u ==> EntryOf(r, v) == EntryOf(s, v)
    ensures Inv(s) ==> Inv(r)
  {
    var s1 := if u !in s.files then s.(files := s.files[u := []], counter := s.counter[u := 1]) else s;
    if |s1.files[u]| == 0 && u in s1.counter then s1.(counter := s1.counter[u := s1.counter[u] + 1]) else s1
  }

  /** `collect`: behind the subscription gate, a first-time user gets an
      empty list and counter 1; an empty list bumps the counter before the
      attachment is looked at; a stored attachment is appended and the
      user's timer is (re)armed. */
  function CollectStep(s: Store, u: UserId, gate: bool, upload: Upload, fetched: bool, stamp: string): (r: Step)
    ensures !gate ==> r == Step(s, MustSubscribe)
    ensures gate ==> u in r.store.files
    ensures gate && u !in s.files ==> u in r.store.counter && r.store.counter[u] == 2
    ensures gate && u in s.files && s.files[u] == [] && u in s.counter ==>
      u in r.store.counter && r.store.counter[u] == s.counter[u] + 1
    ensures gate && FilesOf(s, u) != [] ==> EntryOf(r.store, u).counter == EntryOf(s, u).counter
    ensures gate && fetched && Storable(upload) ==>
      && u in r.store.files
      && r.store.files[u] == FilesOf(s, u) + [StoredPath(u, stamp, upload)]
      && r.store.pending == s.pending + {u}
      && r.reply == ProgressShown(Progress(|r.store.files[u]|), CounterOf(r.store, u))
    ensures gate && !(fetched && Storable(upload)) ==>
      && FilesOf(r.store, u) == FilesOf(s, u)
      && r.store.pending == s.pending
      && r.reply == (if upload.NoAttachment? then FileNotFound else UploadFailed)
    ensures forall v :: v != u ==> EntryOf(r.store, v) == EntryOf(s, v)
    ensures Inv(s) ==> Inv(r.store)
  {
    if !gate then Step(s, MustSubscribe)
    else
      var s2 := OpenBatch(s, u);
      if upload.NoAttachment? then Step(s2, FileNotFound)
      else if !(fetched && Storable(upload)) then Step(s2, UploadFailed)
      else
        var files := s2.files[u] + [StoredPath(u, stamp, upload)];
        var s3 := s2.(files := s2.files[u := files], pending := s2.pending + {u});
        Step(s3, ProgressShown(Progress(|files|), CounterOf(s3, u)))
  }

  /** `delayed_pdf`, when the user's timer expires: on an empty list it
      only forgets the timer; otherwise it sends the "creating PDF" notice
      and finalizes. The timer is forgotten in every case. */
  function FireStep(s: Store, u: UserId, noticeSent: bool, d: Delivery): (r: Step)
    ensures u !in r.store.pending
    ensures r.reply.Ran? <==> FilesOf(s, u) != [] && noticeSent
    ensures FilesOf(s, u) == [] ==> r == Step(s.(pending := s.pending - {u}), TimerIdle)
    ensures !r.reply.Ran? ==> r.store == s.(pending := s.pending - {u})
    ensures r.reply.Ran? ==>
      && r.reply == FinalizeStep(s, u, d).reply
      && r.store == FinalizeStep(s, u, d).store.(pending := s.pending - {u})
    ensures forall v :: v != u ==> EntryOf(r.store, v) == EntryOf(s, v)
    ensures Inv(s) ==> Inv(r.store)
  {
    if FilesOf(s, u) == [] then Step(s.(pending := s.pending - {u}), TimerIdle)
    else if !noticeSent then Step(s.(pending := s.pending - {u}), NoticeFailed)
    else
      var f := FinalizeStep(s, u, d);
      Step(f.store.(pending := f.store.pending - {u}), f.reply)
  }

  /** `new_pdf`: with files, forget the timer and finalize now; without,
      change nothing and ask for files. */
  function NewPdfStep(s: Store, u: UserId, gate: bool, d: Delivery): (r: Step)
    ensures !gate ==> r == Step(s, MustSubscribe)
    ensures gate && FilesOf(s, u) == [] ==> r == Step(s, SendFilesFirst)
    ensures gate && FilesOf(s, u) != [] ==> u !in r.store.pending && r.reply == FinalizeStep(s, u, d).reply
    ensures gate && FilesOf(s, u) != [] && d != Raised ==>
      && r.reply == Ran(Completed(CounterOf(s, u), FilesOf(s, u), d == Delivered))
      && u in r.store.files && r.store.files[u] == []
      && u in r.store.counter && r.store.counter[u] == CounterOf(s, u) + 1
    ensures gate && FilesOf(s, u) != [] && d == Raised ==>
      r == Step(s.(pending := s.pending - {u}), Ran(Crashed))
    ensures forall v :: v != u ==> EntryOf(r.store, v) == EntryOf(s, v)
    ensures Inv(s) ==> Inv(r.store)
  {
    if !gate then Step(s, MustSubscribe)
    else if FilesOf(s, u) != [] then FinalizeStep(s.(pending := s.pending - {u}), u, d)
    else Step(s, SendFilesFirst)
  }

  /** `clean`: forget the timer, empty the list if the user has one, and
      set the counter to 1 in any case. */
  function CleanStep(s: Store, u: UserId, gate: bool): (r: Step)
    ensures !gate ==> r == Step(s, MustSubscribe)
    ensures gate ==>
      && EntryOf(r.store, u) == Entry(if u in s.files then Some([]) else None, Some(1), false)
      && r.reply == AllCleaned
    ensures forall v :: v != u ==> EntryOf(r.store, v) == EntryOf(s, v)
    ensures Inv(s) ==> Inv(r.store)
  {
    if !gate then Step(s, MustSubscribe)
    else
      var s1 := s.(pending := s.pending - {u});
      var s2 := if u in s1.files then s1.(files := s1.files[u := []]) else s1;
      Step(s2.(counter := s2.counter[u := 1]), AllCleaned)
  }

  /** `start`: an empty list, counter 1, no timer. */
  function StartStep(s: Store, u: UserId): (r: Step)
    ensures EntryOf(r.store, u) == Entry(Some([]), Some(1), false)
    ensures forall v :: v != u ==> EntryOf(r.store, v) == EntryOf(s, v)
    ensures Inv(s) ==> Inv(r.store)
  {
    Step(Store(s.files[u := []], s.counter[u := 1], s.pending - {u}), Welcome)
  }

  /** `check_subscription_callback`: once the subscription is confirmed,
      an empty list and counter 1, but a live timer is left running. */
  function ConfirmStep(s: Store, u: UserId, confirmed: bool): (r: Step)
    ensures !confirmed ==> r == Step(s, NotConfirmed)
    ensures confirmed ==> EntryOf(r.store, u) == Entry(Some([]), Some(1), u in s.pending) && r.reply == Confirmed
    ensures forall v :: v != u ==> EntryOf(r.store, v) == EntryOf(s, v)
    ensures Inv(s) ==> Inv(r.store)
  {
    if confirmed then Step(s.(files := s.files[u := []], counter := s.counter[u := 1]), Confirmed)
    else Step(s, NotConfirmed)
  }

  /** `status`: the counter as the "next PDF number" and the file count. */
  function StatusOf(s: Store, u: UserId, gate: bool): (r: Reply)
    ensures !gate ==> r == MustSubscribe
    ensures r.Waiting? <==> gate && FilesOf(s, u) != []
    ensures r.Waiting? ==> r.count == |FilesOf(s, u)| && r.next == CounterOf(s, u)
    ensures r == ReadyForFiles <==> gate && u !in s.files
    ensures r.Idle? <==> gate && u in s.files && s.files[u] == []
    ensures r.Idle? ==> r.next == CounterOf(s, u)
    ensures Inv(s) && (r.Waiting? || r.Idle?) ==> r.next >= 1
  {
    if !gate then MustSubscribe
    else if u !in s.files then ReadyForFiles
    else if |s.files[u]| > 0 then Waiting(CounterOf(s, u), |s.files[u]|)
    else Idle(CounterOf(s, u))
  }

  // ---------------------------------------------------------------------
  // Properties of single handlers
  // ---------------------------------------------------------------------

  /** `/newpdf` on a user with files does exactly what the timer would do
      if it expired now and the notice went out. */
  lemma NewPdfIsEarlyFire(s: Store, u: UserId, d: Delivery)
    requires FilesOf(s, u) != []
    ensures NewPdfStep(s, u, true, d) == FireStep(s, u, true, d)
  {
    var f := FinalizeStep(s, u, d);
    var g := FinalizeStep(s.(pending := s.pending - {u}), u, d);
    assert FilesOf(s.(pending := s.pending - {u}), u) == FilesOf(s, u);
    assert CounterOf(s.(pending := s.pending - {u}), u) == CounterOf(s, u);
  }

  /** When the subscription is confirmed while a timer is live, the timer
      later finds an empty list and produces nothing. */
  lemma ConfirmedTimerFindsNothing(s: Store, u: UserId, noticeSent: bool, d: Delivery)
    requires u in s.pending
    ensures var s1 := ConfirmStep(s, u, true).store;
      u in s1.pending && FireStep(s1, u, noticeSent, d).reply == TimerIdle
  {
    var s1 := ConfirmStep(s, u, true).store;
    assert FilesOf(s1, u) == [];
  }

  /** While files are waiting, `status` announces the label the PDF will
      carry and the number of files that will go into it. */
  lemma StatusWaitingPredictsPdf(s: Store, u: UserId, d: Delivery)
    requires StatusOf(s, u, true).Waiting?
    requires d != Raised
    ensures var st := StatusOf(s, u, true);
      var res := NewPdfStep(s, u, true, d).reply.result;
      res.Completed? && res.number == st.next && |res.batch| == st.count
  {
    assert FilesOf(s, u) != [];
  }

  /** With an empty list, the "next PDF number" `status` announces is one
      less than the label the next batch gets, because the next upload
      bumps the counter before anything is finalized. */
  lemma StatusIdleUnderstatesNextLabel(s: Store, u: UserId, upload: Upload, stamp: string, d: Delivery)
    requires Inv(s)
    requires StatusOf(s, u, true).Idle?
    requires Storable(upload) && d != Raised
    ensures var s1 := CollectStep(s, u, true, upload, true, stamp).store;
      var res := NewPdfStep(s1, u, true, d).reply.result;
      res.Completed? && res.number == StatusOf(s, u, true).next + 1
  {
    var s1 := CollectStep(s, u, true, upload, true, stamp).store;
    assert FilesOf(s1, u) != [];
  }

  // ---------------------------------------------------------------------
  // Runs: sequences of events
  // ---------------------------------------------------------------------

  /** What can happen to the bot: a message with an attachment, a timer
      expiring, or one of the commands /newpdf, /clean, /start, /status
      and the subscription-check button. */
  datatype Event =
    | Message(user: UserId, gate: bool, upload: Upload, fetched: bool, stamp: string)
    | TimerExpired(user: UserId, noticeSent: bool, delivery: Delivery)
    | NewPdfCommand(user: UserId, gate: bool, delivery: Delivery)
    | CleanCommand(user: UserId, gate: bool)
    | StartCommand(user: UserId)
    | SubscriptionCheck(user: UserId, confirmed: bool)
    | StatusCommand(user: UserId, gate: bool)

  /** One event. A timer can expire only while it is live: a cancelled
      timer never fires. */
  function Apply(s: Store, e: Event): (r: Step)
    ensures forall v :: v != e.user ==> EntryOf(r.store, v) == EntryOf(s, v)
    ensures Inv(s) ==> Inv(r.store)
  {
    match e
    case Message(u, gate, upload, fetched, stamp) => CollectStep(s, u, gate, upload, fetched, stamp)
    case TimerExpired(u, noticeSent, d) =>
      if u in s.pending then FireStep(s, u, noticeSent, d) else Step(s, NotArmed)
    case NewPdfCommand(u, gate, d) => NewPdfStep(s, u, gate, d)
    case CleanCommand(u, gate) => CleanStep(s, u, gate)
    case StartCommand(u) => StartStep(s, u)
    case SubscriptionCheck(u, confirmed) => ConfirmStep(s, u, confirmed)
    case StatusCommand(u, gate) => Step(s, StatusOf(s, u, gate))
  }

  /** A finished PDF: whose, its label and the files in it. */
  datatype Output = Output(user: UserId, number: int, batch: seq<Path>)

  function OutputsOf(u: UserId, r: Step): seq<Output> {
    if r.reply.Ran? && r.reply.result.Completed?
    then [Output(u, r.reply.result.number, r.reply.result.batch)]
    else []
  }

  datatype Trace = Trace(store: Store, outputs: seq<Output>)

  function Run(s: Store, evs: seq<Event>): Trace
    decreases |evs|
  {
    if evs == [] then Trace(s, [])
    else
      var r := Apply(s, evs[0]);
      var t := Run(r.store, evs[1..]);
      Trace(t.store, OutputsOf(evs[0].user, r) + t.outputs)
  }

  /** The events that throw a user's list away: /start, a /clean that
      passes the gate, and a confirmed subscription. */
  predicate IsReset(e: Event, u: UserId) {
    e.user == u && (e.StartCommand? || (e.CleanCommand? && e.gate) || (e.SubscriptionCheck? && e.confirmed))
  }

  /** A message that passes the gate but stores nothing. */
  predicate FailedUpload(e: Event, u: UserId) {
    e.Message? && e.user == u && e.gate && !(e.fetched && Storable(e.upload))
  }

  /** The path a message stores for `u`, if any. */
  function Uploaded(e: Event, u: UserId): seq<Path> {
    if e.Message? && e.user == u && e.gate && e.fetched && Storable(e.upload)
    then [StoredPath(u, e.stamp, e.upload)]
    else []
  }

  function AllUploaded(evs: seq<Event>, u: UserId): seq<Path>
    decreases |evs|
  {
    if evs == [] then [] else Uploaded(evs[0], u) + AllUploaded(evs[1..], u)
  }

  /** The files of all of `u`'s finished PDFs, in order. A finished PDF was
      rendered; whether it reached the user is its `sent` flag. */
  function FinishedFiles(u: UserId, outs: seq<Output>): seq<Path>
    decreases |outs|
  {
    if outs == [] then []
    else (if outs[0].user == u then outs[0].batch else []) + FinishedFiles(u, outs[1..])
  }

  /** The labels of `u`'s finished PDFs, in order. */
  function LabelsOf(u: UserId, outs: seq<Output>): seq<int>
    decreases |outs|
  {
    if outs == [] then []
    else (if outs[0].user == u then [outs[0].number] else []) + LabelsOf(u, outs[1..])
  }

  lemma {:induction false} FinishedFilesConcat(u: UserId, a: seq<Output>, b: seq<Output>)
    ensures FinishedFiles(u, a + b) == FinishedFiles(u, a) + FinishedFiles(u, b)
    decreases |a|
  {
    if a == [] {
      assert a + b == b;
    } else {
      assert (a + b)[0] == a[0] && (a + b)[1..] == a[1..] + b;
      FinishedFilesConcat(u, a[1..], b);
    }
  }

  lemma {:induction false} LabelsOfConcat(u: UserId, a: seq<Output>, b: seq<Output>)
    ensures LabelsOf(u, a + b) == LabelsOf(u, a) + LabelsOf(u, b)
    decreases |a|
  {
    if a == [] {
      assert a + b == b;
    } else {
      assert (a + b)[0] == a[0] && (a + b)[1..] == a[1..] + b;
      var head := if a[0].user == u then [a[0].number] else [];
      assert LabelsOf(u, a + b) == head + LabelsOf(u, a[1..] + b);
      LabelsOfConcat(u, a[1..], b);
    }
  }

  lemma SameEntrySameFiles(s: Store, t: Store, u: UserId)
    requires EntryOf(s, u) == EntryOf(t, u)
    ensures FilesOf(s, u) == FilesOf(t, u)
    ensures u in s.files <==> u in t.files
    ensures u in s.counter <==> u in t.counter
    ensures u in s.counter ==> s.counter[u] == t.counter[u]
    ensures u in s.files ==> s.files[u] == t.files[u]
  {
    assert EntryOf(s, u).files == EntryOf(t, u).files;
    assert EntryOf(s, u).counter == EntryOf(t, u).counter;
  }

  /** One event, seen from one user: the files of the PDFs it finishes,
      followed by the list it leaves, are the list it found followed by
      the file it stores. */
  lemma StepAccounting(s: Store, e: Event, u: UserId)
    requires !IsReset(e, u)
    ensures var r := Apply(s, e);
      FinishedFiles(u, OutputsOf(e.user, r)) + FilesOf(r.store, u) == FilesOf(s, u) + Uploaded(e, u)
  {
    var r := Apply(s, e);
    if e.user != u {
      SameEntrySameFiles(r.store, s, u);
      assert FinishedFiles(u, OutputsOf(e.user, r)) == [];
    } else if e.TimerExpired? && e.user in s.pending && FilesOf(s, u) != [] && e.noticeSent
      && e.delivery != Raised {
      assert FinishedFiles(u, OutputsOf(e.user, r)) == FilesOf(s, u);
    } else if e.NewPdfCommand? && e.gate && FilesOf(s, u) != [] && e.delivery != Raised {
      assert FinishedFiles(u, OutputsOf(e.user, r)) == FilesOf(s, u);
    } else {
      assert FinishedFiles(u, OutputsOf(e.user, r)) == [];
    }
  }

  /** A run is its first event followed by the run of the rest. */
  lemma RunCons(s: Store, evs: seq<Event>)
    requires evs != []
    ensures Run(s, evs).store == Run(Apply(s, evs[0]).store, evs[1..]).store
    ensures Run(s, evs).outputs
         == OutputsOf(evs[0].user, Apply(s, evs[0])) + Run(Apply(s, evs[0]).store, evs[1..]).outputs
  {
  }

  lemma Regroup(d1: seq<Path>, d2: seq<Path>, f0: seq<Path>, f1: seq<Path>, f2: seq<Path>,
                 u0: seq<Path>, u1: seq<Path>)
    requires d1 + f1 == f0 + u0 && d2 + f2 == f1 + u1
    ensures (d1 + d2) + f2 == f0 + (u0 + u1)
  {
    calc {
      (d1 + d2) + f2;
      d1 + (d2 + f2);
      d1 + (f1 + u1);
      (d1 + f1) + u1;
      (f0 + u0) + u1;
    }
  }

  /** No file is lost or put into two PDFs: over any run without a reset
      of `u`, the files of `u`'s finished PDFs, in order, followed by the
      list still waiting, are the list at the start followed by every
      file stored, in arrival order. */
  lemma {:induction false} NoLossNoDuplication(s: Store, evs: seq<Event>, u: UserId)
    requires forall i :: 0 <= i < |evs| ==> !IsReset(evs[i], u)
    ensures FinishedFiles(u, Run(s, evs).outputs) + FilesOf(Run(s, evs).store, u)
         == FilesOf(s, u) + AllUploaded(evs, u)
    decreases |evs|
  {
    if evs != [] {
      var e := evs[0];
      var r := Apply(s, e);
      var t := Run(r.store, evs[1..]);
      var here := OutputsOf(e.user, r);
      RunCons(s, evs);
      assert AllUploaded(evs, u) == Uploaded(e, u) + AllUploaded(evs[1..], u);
      StepAccounting(s, e, u);
      forall i | 0 <= i < |evs[1..]| ensures !IsReset(evs[1..][i], u) {
        assert evs[1..][i] == evs[i + 1];
      }
      NoLossNoDuplication(r.store, evs[1..], u);
      FinishedFilesConcat(u, here, t.outputs);
      Regroup(FinishedFiles(u, here), FinishedFiles(u, t.outputs), FilesOf(s, u), FilesOf(r.store, u),
              FilesOf(t.store, u), Uploaded(e, u), AllUploaded(evs[1..], u));
    }
  }


  /** `u`'s counter relative to the label of the last PDF: one above it
      while the list is empty, two above it while files wait. A user with
      no list counts as having last had label 0. */
  ghost predicate Tracks(s: Store, u: UserId, last: int) {
    if u !in s.files then last == 0
    else u in s.counter && s.counter[u] == last + (if s.files[u] == [] then 1 else 2)
  }

  lemma StepLabels(s: Store, e: Event, u: UserId, last: int)
    requires Inv(s) && Tracks(s, u, last)
    requires !IsReset(e, u) && !FailedUpload(e, u)
    ensures var r := Apply(s, e);
      var ls := LabelsOf(u, OutputsOf(e.user, r));
      (ls == [] && Tracks(r.store, u, last)) || (ls == [last + 2] && Tracks(r.store, u, last + 2))
  {
    var r := Apply(s, e);
    if e.user != u {
      SameEntrySameFiles(r.store, s, u);
      assert LabelsOf(u, OutputsOf(e.user, r)) == [];
    } else if e.TimerExpired? && e.user in s.pending && FilesOf(s, u) != [] && e.noticeSent
      && e.delivery != Raised {
      assert LabelsOf(u, OutputsOf(e.user, r)) == [last + 2];
    } else if e.NewPdfCommand? && e.gate && FilesOf(s, u) != [] && e.delivery != Raised {
      assert LabelsOf(u, OutputsOf(e.user, r)) == [last + 2];
    } else {
      assert LabelsOf(u, OutputsOf(e.user, r)) == [];
    }
  }

  /** A timer that fires after its handle was dropped from `user_tasks`
      (the older timer of a re-armed batch pops the newer handle in its
      `finally`) still keeps the accounting of StepAccounting and the
      labelling of StepLabels: neither depends on `u` being pending. */
  lemma OrphanedTimerKeepsAccounting(s: Store, u: UserId, noticeSent: bool, d: Delivery, last: int)
    requires u !in s.pending
    ensures var r := FireStep(s, u, noticeSent, d);
      FinishedFiles(u, OutputsOf(u, r)) + FilesOf(r.store, u) == FilesOf(s, u)
    ensures Inv(s) && Tracks(s, u, last) ==>
      var r := FireStep(s, u, noticeSent, d);
      var ls := LabelsOf(u, OutputsOf(u, r));
      (ls == [] && Tracks(r.store, u, last)) || (ls == [last + 2] && Tracks(r.store, u, last + 2))
  {
    var r := FireStep(s, u, noticeSent, d);
    if FilesOf(s, u) != [] && noticeSent && d != Raised {
      assert FinishedFiles(u, OutputsOf(u, r)) == FilesOf(s, u);
      assert LabelsOf(u, OutputsOf(u, r)) == [CounterOf(s, u)];
    } else {
      assert FinishedFiles(u, OutputsOf(u, r)) == [];
      assert LabelsOf(u, OutputsOf(u, r)) == [];
    }
  }

  /** Without resets and failed uploads, each PDF of `u` is labelled two
      above the one before: the counter moves once when the finished PDF
      is counted and once more when the next batch's first file arrives. */
  lemma {:induction false} LabelsAdvanceByTwo(s: Store, evs: seq<Event>, u: UserId, last: int)
    requires Inv(s) && Tracks(s, u, last)
    requires forall i :: 0 <= i < |evs| ==> !IsReset(evs[i], u) && !FailedUpload(evs[i], u)
    ensures var ls := LabelsOf(u, Run(s, evs).outputs);
      forall i :: 0 <= i < |ls| ==> ls[i] == last + 2 * (i + 1)
    decreases |evs|
  {
    if evs != [] {
      var e := evs[0];
      var r := Apply(s, e);
      var t := Run(r.store, evs[1..]);
      var here := OutputsOf(e.user, r);
      RunCons(s, evs);
      StepLabels(s, e, u, last);
      LabelsOfConcat(u, here, t.outputs);
      forall i | 0 <= i < |evs[1..]| ensures !IsReset(evs[1..][i], u) && !FailedUpload(evs[1..][i], u) {
        assert evs[1..][i] == evs[i + 1];
      }
      var first := LabelsOf(u, here);
      var rest := LabelsOf(u, t.outputs);
      if first == [] {
        LabelsAdvanceByTwo(r.store, evs[1..], u, last);
      } else {
        LabelsAdvanceByTwo(r.store, evs[1..], u, last + 2);
        var ls := first + rest;
        forall i | 1 <= i < |ls| ensures ls[i] == last + 2 * (i + 1) {
          assert ls[i] == rest[i - 1];
        }
      }
    }
  }

  /** From a fresh start, a user's PDFs are labelled 2, 4, 6, ... */
  lemma FreshUserLabels(evs: seq<Event>, u: UserId)
    requires forall i :: 0 <= i < |evs| ==> !IsReset(evs[i], u) && !FailedUpload(evs[i], u)
    ensures var ls := LabelsOf(u, Run(Initial, evs).outputs);
      forall i :: 0 <= i < |ls| ==> ls[i] == 2 * (i + 1)
  {
    LabelsAdvanceByTwo(Initial, evs, u, 0);
  }

  /** A reset finishes no PDF and puts the user back where a new user
      starts, so the next label is 2 again. */
  lemma ResetRestartsNumbering(s: Store, e: Event, u: UserId)
    requires Inv(s) && IsReset(e, u)
    ensures LabelsOf(u, OutputsOf(e.user, Apply(s, e))) == []
    ensures Tracks(Apply(s, e).store, u, 0)
  {
  }

  /** A photo whose download fails still bumps the counter of an empty
      list, so the next PDF skips a label. */
  lemma FailedUploadSkipsALabel(u: UserId)
    ensures var evs := [
        Message(u, true, Photo("x"), false, "1"),
        Message(u, true, Photo("a"), true, "2"),
        NewPdfCommand(u, true, Delivered)];
      LabelsOf(u, Run(Initial, evs).outputs) == [3]
  {
    var m1 := Message(u, true, Photo("x"), false, "1");
    var m2 := Message(u, true, Photo("a"), true, "2");
    var np := NewPdfCommand(u, true, Delivered);
    var evs := [m1, m2, np];
    var s1 := Apply(Initial, m1).store;
    assert s1.counter[u] == 2 && s1.files[u] == [];
    var s2 := Apply(s1, m2).store;
    assert s2.counter[u] == 3 && |s2.files[u]| == 1;
    var r3 := Apply(s2, np);
    assert r3.reply.result.number == 3;
    assert LabelsOf(u, OutputsOf(u, r3)) == [3];
    assert evs[1..] == [m2, np] && evs[1..][1..] == [np] && evs[1..][1..][1..] == [];
    assert Run(s2, [np]).outputs == OutputsOf(u, r3);
    assert Run(s1, [m2, np]).outputs == OutputsOf(u, r3);
    assert Run(Initial, evs).outputs == OutputsOf(u, r3);
  }
}

=== FILE: textclean.dfy ===
/**
  `clean_text`: the text normaliser applied to every paragraph of a Word
  file and every cell of a spreadsheet before it is written into the PDF.

  The replacement table is a Python dict literal: a list of (old, new)
  pairs whose first part is a set of mojibake repairs (kept abstract here)
  and whose last three entries are fixed: NUL is dropped, CRLF becomes LF,
  a lone CR becomes LF. The function applies the table's entries in dict
  order, strips surrounding whitespace and maps a blank result to "".
*/
module TextClean {
  import opened PyStr

  /** One entry of the replacement table: (old, new). */
  type Pair = (string, string)

  /** The three fixed entries that close the table, in their order. */
  const FixedSteps: seq<Pair> := [("\0", ""), ("\r\n", "\n"), ("\r", "\n")]

  function KeySet(items: seq<Pair>): set<string> {
    set i | 0 <= i < |items| :: items[i].0
  }

  predicate UniqueKeys(items: seq<Pair>) {
    forall i, j :: 0 <= i < j < |items| ==> items[i].0 != items[j].0
  }

  /** The value given last to `k` in a list of pairs. */
  function LastValue(pairs: seq<Pair>, k: string): string
    requires k in KeySet(pairs)
    decreases |pairs|
  {
    var n := |pairs| - 1;
    if pairs[n].0 == k then pairs[n].1
    else
      assert k in KeySet(pairs[..n]) by {
        var i :| 0 <= i < |pairs| && pairs[i].0 == k;
        assert pairs[..n][i].0 == k;
      }
      LastValue(pairs[..n], k)
  }

  /** The position at which `k` first occurs in a list of pairs. */
  function FirstIndex(pairs: seq<Pair>, k: string): (r: nat)
    requires k in KeySet(pairs)
    ensures r < |pairs| && pairs[r].0 == k
    ensures forall j :: 0 <= j < r ==> pairs[j].0 != k
    decreases |pairs|
  {
    if pairs[0].0 == k then 0
    else
      assert k in KeySet(pairs[1..]) by {
        var i :| 0 <= i < |pairs| && pairs[i].0 == k;
        assert pairs[1..][i - 1].0 == k;
      }
      1 + FirstIndex(pairs[1..], k)
  }

  /** `d[k] = v` on a dict given by its items in order: a key already
      present keeps its place and takes the new value, a new key goes last. */
  function Put(items: seq<Pair>, k: string, v: string): seq<Pair> {
    if k in KeySet(items) then
      seq(|items|, i requires 0 <= i < |items| => if items[i].0 == k then (k, v) else items[i])
    else items + [(k, v)]
  }

  lemma KeySetOfPrefix(pairs: seq<Pair>)
    requires pairs != []
    ensures KeySet(pairs) == KeySet(pairs[..|pairs| - 1]) + {pairs[|pairs| - 1].0}
  {
    var n := |pairs| - 1;
    forall k | k in KeySet(pairs) ensures k in KeySet(pairs[..n]) + {pairs[n].0} {
      var i :| 0 <= i < |pairs| && pairs[i].0 == k;
      if i < n { assert pairs[..n][i].0 == k; }
    }
    forall k | k in KeySet(pairs[..n]) ensures k in KeySet(pairs) {
      var i :| 0 <= i < n && pairs[..n][i].0 == k;
      assert pairs[i].0 == k;
    }
  }

  /** The items of the dict built from a literal with these pairs. Python
      keeps a repeated key at its first position, with its last value. */
  function DictItems(pairs: seq<Pair>): (r: seq<Pair>)
    ensures UniqueKeys(r)
    ensures KeySet(r) == KeySet(pairs)
    ensures forall i :: 0 <= i < |r| ==> r[i].0 in KeySet(pairs) && r[i].1 == LastValue(pairs, r[i].0)
    ensures forall i, j :: 0 <= i < j < |r| ==> FirstIndex(pairs, r[i].0) < FirstIndex(pairs, r[j].0)
    decreases |pairs|
  {
    if pairs == [] then []
    else
      var n := |pairs| - 1;
      var d := DictItems(pairs[..n]);
      var r := Put(d, pairs[n].0, pairs[n].1);
      DictItemsStep(pairs, d, r);
      r
  }

  /** The four facts that make `r` the items of the dict built from `pairs`. */
  ghost predicate IsDictOf(pairs: seq<Pair>, r: seq<Pair>) {
    && UniqueKeys(r)
    && KeySet(r) == KeySet(pairs)
    && (forall i :: 0 <= i < |r| ==> r[i].0 in KeySet(pairs) && r[i].1 == LastValue(pairs, r[i].0))
    && (forall i, j :: 0 <= i < j < |r| ==> FirstIndex(pairs, r[i].0) < FirstIndex(pairs, r[j].0))
  }

  lemma FirstIndexOfPrefix(pairs: seq<Pair>, key: string)
    requires pairs != [] && key in KeySet(pairs[..|pairs| - 1])
    ensures key in KeySet(pairs)
    ensures FirstIndex(pairs, key) == FirstIndex(pairs[..|pairs| - 1], key)
  {
    var n := |pairs| - 1;
    KeySetOfPrefix(pairs);
    var a, b := FirstIndex(pairs, key), FirstIndex(pairs[..n], key);
    assert pairs[b].0 == key;
  }

  /** One step of building the dict: the last pair of `pairs` is put into
      the dict already built from the others. */
  lemma DictItemsStep(pairs: seq<Pair>, d: seq<Pair>, r: seq<Pair>)
    requires pairs != []
    requires IsDictOf(pairs[..|pairs| - 1], d)
    requires r == Put(d, pairs[|pairs| - 1].0, pairs[|pairs| - 1].1)
    ensures IsDictOf(pairs, r)
  {
    var n := |pairs| - 1;
    KeySetOfPrefix(pairs);
    if pairs[n].0 in KeySet(d) {
      PutExisting(pairs, d, r);
    } else {
      PutNew(pairs, d, r);
    }
  }

  lemma SameKeysSameKeySet(d: seq<Pair>, r: seq<Pair>)
    requires |r| == |d| && forall i :: 0 <= i < |r| ==> r[i].0 == d[i].0
    ensures KeySet(r) == KeySet(d)
  {
    forall key | key in KeySet(r) ensures key in KeySet(d) {
      var i :| 0 <= i < |r| && r[i].0 == key;
      assert d[i].0 == key;
    }
    forall key | key in KeySet(d) ensures key in KeySet(r) {
      var i :| 0 <= i < |d| && d[i].0 == key;
      assert r[i].0 == key;
    }
  }

  lemma PutExisting(pairs: seq<Pair>, d: seq<Pair>, r: seq<Pair>)
    requires pairs != []
    requires IsDictOf(pairs[..|pairs| - 1], d)
    requires pairs[|pairs| - 1].0 in KeySet(d)
    requires r == Put(d, pairs[|pairs| - 1].0, pairs[|pairs| - 1].1)
    ensures IsDictOf(pairs, r)
  {
    var n := |pairs| - 1;
    var k := pairs[n].0;
    KeySetOfPrefix(pairs);
    assert |r| == |d|;
    assert forall i :: 0 <= i < |r| ==> r[i].0 == d[i].0;
    SameKeysSameKeySet(d, r);
    forall i | 0 <= i < |r| ensures r[i].0 in KeySet(pairs) && r[i].1 == LastValue(pairs, r[i].0) {
      assert d[i].0 in KeySet(pairs[..n]);
    }
    forall i, j | 0 <= i < j < |r| ensures FirstIndex(pairs, r[i].0) < FirstIndex(pairs, r[j].0) {
      FirstIndexOfPrefix(pairs, d[i].0);
      FirstIndexOfPrefix(pairs, d[j].0);
    }
  }

  lemma PutNew(pairs: seq<Pair>, d: seq<Pair>, r: seq<Pair>)
    requires pairs != []
    requires IsDictOf(pairs[..|pairs| - 1], d)
    requires pairs[|pairs| - 1].0 !in KeySet(d)
    requires r == Put(d, pairs[|pairs| - 1].0, pairs[|pairs| - 1].1)
    ensures IsDictOf(pairs, r)
  {
    var n := |pairs| - 1;
    var k := pairs[n].0;
    KeySetOfPrefix(pairs);
    assert r == d + [(k, pairs[n].1)];
    assert FirstIndex(pairs, k) == n;
    assert KeySet(r) == KeySet(d) + {k} by {
      forall key | key in KeySet(r) ensures key in KeySet(d) + {k} {
        var i :| 0 <= i < |r| && r[i].0 == key;
        if i < |d| { assert d[i].0 == key; }
      }
      forall key | key in KeySet(d) + {k} ensures key in KeySet(r) {
        if key != k {
          var i :| 0 <= i < |d| && d[i].0 == key;
          assert r[i].0 == key;
        } else {
          assert r[|d|].0 == k;
        }
      }
    }
    forall i | 0 <= i < |r| ensures r[i].0 in KeySet(pairs) && r[i].1 == LastValue(pairs, r[i].0) {
      if i < |d| { assert d[i].0 in KeySet(pairs[..n]); }
    }
    forall i, j | 0 <= i < j < |r| ensures FirstIndex(pairs, r[i].0) < FirstIndex(pairs, r[j].0) {
      FirstIndexOfPrefix(pairs, d[i].0);
      if j < |d| { FirstIndexOfPrefix(pairs, d[j].0); }
    }
  }

  /** A pair with a new key is appended to the dict. */
  lemma DictItemsSnoc(pairs: seq<Pair>, p: Pair)
    requires p.0 !in KeySet(pairs)
    ensures DictItems(pairs + [p]) == DictItems(pairs) + [p]
  {
    var q := pairs + [p];
    assert q[..|q| - 1] == pairs;
    assert q[|q| - 1] == p;
  }

  /** Pairs whose keys are new and distinct are appended to the dict
      in their own order. */
  lemma {:induction false} DictItemsAppendFresh(pairs: seq<Pair>, extra: seq<Pair>)
    requires UniqueKeys(extra)
    requires KeySet(extra) !! KeySet(pairs)
    ensures DictItems(pairs + extra) == DictItems(pairs) + extra
    decreases |extra|
  {
    if extra == [] {
      assert pairs + extra == pairs;
    } else {
      var m := |extra| - 1;
      var e := extra[..m];
      var x := extra[m];
      assert UniqueKeys(e);
      KeySetOfPrefix(extra);
      DictItemsAppendFresh(pairs, e);
      forall i | 0 <= i < |pairs + e| ensures (pairs + e)[i].0 != x.0 {
        if i < |pairs| {
          assert pairs[i].0 in KeySet(pairs);
        } else {
          assert (pairs + e)[i] == extra[i - |pairs|];
        }
      }
      DictItemsSnoc(pairs + e, x);
      assert pairs + extra == (pairs + e) + [x];
      assert e + [x] == extra;
    }
  }

  /** Applying the table entries one after the other, as the loop does. */
  function ApplyAll(s: string, items: seq<Pair>): string
    decreases |items|
  {
    if items == [] then s else ApplyAll(Replace(s, items[0].0, items[0].1), items[1..])
  }

  lemma {:induction false} ApplyAllConcat(s: string, a: seq<Pair>, b: seq<Pair>)
    ensures ApplyAll(s, a + b) == ApplyAll(ApplyAll(s, a), b)
    decreases |a|
  {
    if a != [] {
      assert (a + b)[0] == a[0];
      assert (a + b)[1..] == a[1..] + b;
      ApplyAllConcat(Replace(s, a[0].0, a[0].1), a[1..], b);
    } else {
      assert a + b == b;
    }
  }

  /** The result of `clean_text(text)` for a str argument. */
  function Cleaned(text: string, mojibake: seq<Pair>): (r: string)
    ensures text == [] ==> r == []
    ensures text != [] ==> StrippedFrom(ApplyAll(text, DictItems(mojibake + FixedSteps)), r)
    ensures NoEdgeSpace(r)
  {
    if text == [] then ""
    else
      var t := Strip(ApplyAll(text, DictItems(mojibake + FixedSteps)));
      if t == [] || IsSpaceString(t) then "" else t
  }

  /** `clean_text`: the loop over the replacement dict rebinds the text. */
  method CleanText(text: string, mojibake: seq<Pair>) returns (r: string)
    ensures r == Cleaned(text, mojibake)
    ensures text == [] ==> r == []
    ensures NoEdgeSpace(r)
  {
    if text == [] {
      return "";
    }
    var replacements := DictItems(mojibake + FixedSteps);
    var t := text;
    var rest := replacements;
    while rest != []
      invariant ApplyAll(t, rest) == ApplyAll(text, replacements)
      decreases |rest|
    {
      var (pat, rep) := rest[0];
      t := Replace(t, pat, rep);
      rest := rest[1..];
    }
    t := Strip(t);
    if t == [] || IsSpaceString(t) {
      return "";
    }
    return t;
  }

  /** The table of the source: its mojibake keys are distinct from the
      three fixed keys and each holds a character that is not whitespace. */
  predicate MojibakeTable(mojibake: seq<Pair>) {
    && KeySet(mojibake) !! KeySet(FixedSteps)
    && forall i :: 0 <= i < |mojibake| ==> exists j :: 0 <= j < |mojibake[i].0| && !IsSpace(mojibake[i].0[j])
  }

  /** CRLF then CR, the last two fixed steps. */
  function NormaliseNewlines(s: string): string {
    Replace(Replace(s, "\r\n", "\n"), "\r", "\n")
  }

  lemma FixedKeys()
    ensures KeySet(FixedSteps) == {"\0", "\r\n", "\r"}
    ensures UniqueKeys(FixedSteps)
  {
    assert FixedSteps[0].0 == "\0" && FixedSteps[1].0 == "\r\n" && FixedSteps[2].0 == "\r";
  }

  /** With the fixed keys not among the mojibake keys, the fixed steps run
      last, in their order, after every mojibake repair. */
  lemma {:induction false} FixedStepsRunLast(text: string, mojibake: seq<Pair>)
    requires KeySet(mojibake) !! KeySet(FixedSteps)
    ensures ApplyAll(text, DictItems(mojibake + FixedSteps))
         == NormaliseNewlines(Replace(ApplyAll(text, DictItems(mojibake)), "\0", ""))
  {
    FixedKeys();
    DictItemsAppendFresh(mojibake, FixedSteps);
    ApplyAllConcat(text, DictItems(mojibake), FixedSteps);
    var x := ApplyAll(text, DictItems(mojibake));
    assert FixedSteps[1..][1..][1..] == [];
  }

  /** The cleaned text holds no NUL and no carriage return. */
  lemma {:induction false} CleanedHasNoNulOrCr(text: string, mojibake: seq<Pair>)
    requires KeySet(mojibake) !! KeySet(FixedSteps)
    ensures '\0' !in Cleaned(text, mojibake)
    ensures '\r' !in Cleaned(text, mojibake)
  {
    if text != [] {
      FixedStepsRunLast(text, mojibake);
      var x := Replace(ApplyAll(text, DictItems(mojibake)), "\0", "");
      ReplaceCharRemoves(ApplyAll(text, DictItems(mojibake)), '\0', "");
      ReplaceKeepsAbsent(x, "\r\n", "\n", '\0');
      var y := Replace(x, "\r\n", "\n");
      ReplaceKeepsAbsent(y, "\r", "\n", '\0');
      ReplaceCharRemoves(y, '\r', "\n");
    }
  }

  /** Each CRLF pair becomes one line feed, not two, and the text on either
      side is normalised on its own. */
  lemma {:induction false} CrLfBecomesOneLineFeed(a: string, b: string)
    ensures NormaliseNewlines(a + "\r\n" + b) == NormaliseNewlines(a) + "\n" + NormaliseNewlines(b)
  {
    ReplaceCrLfSplits(a, b);
    var a', b' := Replace(a, "\r\n", "\n"), Replace(b, "\r\n", "\n");
    ReplaceCharConcat(a' + "\n", b', '\r', "\n");
    ReplaceCharConcat(a', "\n", '\r', "\n");
    assert Replace("\n", "\r", "\n") == "\n";
  }

  lemma {:induction false} ApplyAllKeepsSpaces(s: string, items: seq<Pair>, mojibake: seq<Pair>)
    requires MojibakeTable(mojibake)
    requires forall i :: 0 <= i < |items| ==> items[i].0 in KeySet(mojibake)
    requires forall i :: 0 <= i < |s| ==> IsSpace(s[i])
    ensures ApplyAll(s, items) == s
    decreases |items|
  {
    if items != [] {
      var i :| 0 <= i < |mojibake| && mojibake[i].0 == items[0].0;
      ReplaceInSpacesIsIdentity(s, items[0].0, items[0].1);
      ApplyAllKeepsSpaces(s, items[1..], mojibake);
    }
  }

  /** Whitespace-only text cleans to the empty string. */
  lemma {:induction false} BlankCleansToEmpty(text: string, mojibake: seq<Pair>)
    requires MojibakeTable(mojibake)
    requires forall i :: 0 <= i < |text| ==> IsSpace(text[i])
    ensures Cleaned(text, mojibake) == ""
  {
    if text != [] {
      FixedStepsRunLast(text, mojibake);
      ApplyAllKeepsSpaces(text, DictItems(mojibake), mojibake);
      assert exists j :: 0 <= j < |"\0"| && !IsSpace("\0"[j]) by { assert !IsSpace("\0"[0]); }
      ReplaceInSpacesIsIdentity(text, "\0", "");
      ReplaceKeepsSpaces(text, "\r\n", "\n");
      ReplaceKeepsSpaces(Replace(text, "\r\n", "\n"), "\r", "\n");
    }
  }
}
